=== FILE: README.md ===
# deb-simple metadata engine in Dafny

deb-simple is a small Debian/APT repository server. Packages are uploaded over
HTTP into bucket directories `<root>/dists/<distro>/<section>/binary-<arch>`.
A file watcher rebuilds a bucket's `Packages`/`Packages.gz` index whenever a
`.deb` in it is written or removed, and then the distribution's `Release`
file, which the server signs as `Release.gpg` and `InRelease`.

This project models that metadata engine:

- `Inspector` (inspector.dfy): reading a package's control text out of its
  `ar` archive and compressed control tarball (`inspectPackage`,
  `inspectPackageControl`, the `Compression` choice).
- `PackageIndex` (package_index.dfy): building the index of one bucket
  (`createPackagesGz`).
- `ReleaseFile` (release.dfy): the `Release` file and the hand-off to the
  signer (`createRelease`, `signRelease`).
- `RepoPaths` (paths.dfy): the bucket directory `conf.ArchPath` and its
  partial inverse `destructPath`.
- `Watcher` (watcher.dfy): what one filesystem event makes the watcher
  goroutine do.
- `Gate` (gate.dfy): the upload and delete handlers, with their method and
  API-key checks (`validateAPIkey`).
- `Text`, `Digests` and `Wrappers` hold the Go string and path helpers, the
  hex shape of digests, and `Option`/`Result`.

Library code is passed in as function-typed parameters: the ar, tar, gzip and
xz readers (`Inspector.Decoders`), the MD5/SHA1/SHA256 digests
(`Digests.Hashes`) and the OpenPGP signer (`ReleaseFile.Signer`). The same
goes for the outcome of I/O: whether a file can be opened, created or read,
what a directory listing or walk yields, and where a reader stops with an
error. Each of these becomes a parameter of the operation that consumes it.
Errors are `Result`/`Option` values. A Go panic is an explicit outcome:
`None` from `DestructPath`, `Panic` in the watcher, and `Dropped` for an
upload.

## Model

| member | source | states |
|---|---|---|
| Inspector.CompressionOfControlMember | packages.go:56-66 | a name that selects gzip or xz always passes the `control.tar` member test, and gzip/xz are chosen exactly for `control.tar.gz`/`control.tar.xz` once trailing `/` are trimmed |
| Inspector.ZstdIsUnsupported | packages.go:56-66 | `control.tar.zst` is a control member that no decompressor handles |
| Inspector.NormaliseControl | packages.go:127 | the result ends in exactly one newline; everything before it is the input verbatim, and only newlines were dropped |
| Inspector.NormaliseBody | packages.go:127 | control text with any number of trailing newlines comes back as its body plus one newline |
| Inspector.NormaliseIdempotent | packages.go:127 | normalising twice is the same as normalising once |
| Inspector.ScanTar | packages.go:106-136 | the only error of the tar loop is a tar read error; a success is empty or ends in one newline |
| Inspector.ScanTarFindsFirstControl | packages.go:106-136 | the first regular `control` or `./control` entry is returned normalised; with none, the result is the empty text, or an error if the reader failed |
| Inspector.InspectControl | packages.go:79-104 | a decompressor that cannot be constructed gives that compression's reader error, and nothing else does |
| Inspector.ScanMembers | packages.go:45-76 | a successful ar scan yields the empty text or text ending in one newline |
| Inspector.ScanMembersFindsFirstControl | packages.go:45-76 | only the first member mentioning `control.tar` is dispatched; with none, the result is the empty text, or an error if the ar reader failed |
| Inspector.InspectPackage | packages.go:31-77 | a file that cannot be opened is an error; a success is empty or ends in one newline |
| Inspector.MissingVersusUnsupported | packages.go:56-76 | for an archive holding `debian-binary` and one more member, read without error: if that member is not a control member the package inspects to the empty text, while a control member with an unknown compression is an error |
| PackageIndex.CreatePackagesGz | packages.go:139-208 | failing to create `Packages` is an error before anything is written, and failing to create `Packages.gz` is an error that leaves `Packages` empty; otherwise both files receive the same bytes; the run succeeds exactly when every package entry inspects and hashes; on failure the error is that of the first failing entry, a hash failure exactly when its inspection succeeded but its digest read did not, and the files keep the records of the entries before it |
| PackageIndex.WriteRecords | packages.go:166-205 | the loop writes the records of every position up to the first failure and reports that failure's error |
| PackageIndex.WrittenIsRecords | packages.go:166-205 | the output is exactly one record per package entry, in listing order; other entries add nothing |
| PackageIndex.DebPositionsSpec | packages.go:166-167 | the positions visited are exactly the entries whose name ends in `deb`, each once, in listing order |
| PackageIndex.NoPackagesAddNothing | packages.go:166-167 | entries whose names do not end in `deb` add nothing to the index |
| PackageIndex.StanzaLines | packages.go:174-198 | a stanza's lines are the control text's lines followed by exactly `Filename`, `Size`, `MD5sum`, `SHA1` and `SHA256`, each ended by a newline |
| PackageIndex.StanzaEnd | packages.go:193-198 | a stanza ends in a newline but never in a blank line |
| PackageIndex.SeparatorRule | packages.go:199-201 | a record ends in the `\n\n` separator exactly when its entry is not the last of the whole listing, and it starts with the stanza |
| PackageIndex.TrailingSeparator | packages.go:199-201 | on a run where every package is indexed, when the listing ends in non-package entries after the last package, the index ends in a blank line |
| PackageIndex.TrailingSeparatorExample | packages.go:145-201 | with `Packages` and `Packages.gz` listed after a package, the index as written ends in a blank line and the corrected index does not |
| PackageIndex.CorrectedIndexEnd | packages.go:199-201 | with separators only between stanzas, the index never ends in a blank line |
| ReleaseFile.CreateRelease | signing.go:24-104 | failing to create `Release` is an error with nothing written; `Release` holds the five-line header, and only that when the walk fails; otherwise it holds the three digest sections over the selected files, and only then is it signed, the run failing exactly when signing does |
| ReleaseFile.ScanWalk | signing.go:49-90 | the walk gives the three sections of the selected files in walk order, or fails exactly when a selected file cannot be read or the walk reports an error |
| ReleaseFile.ReadableIff | signing.go:64-72 | the walk succeeds up to a point exactly when every selected path visited so far could be read |
| ReleaseFile.SelectedSound | signing.go:54 | every file listed in a section was visited and passes the `Packages`/`Packages.gz` suffix filter |
| ReleaseFile.SelectedComplete | signing.go:54 | every visited file that passes the filter is listed |
| ReleaseFile.IndexPathOfRel | signing.go:54-63 | below the working directory, the filter on the full path agrees with the filter on the relative path that is printed |
| ReleaseFile.ReleaseLayout | signing.go:38-97 | the lines of `Release` are the five header lines, then `MD5Sum:`, `SHA1:` and `SHA256:`, each followed by one line per selected file, and nothing after the final newline |
| ReleaseFile.SectionsAgree | signing.go:73-81 | line `k` of each section splits into an empty lead, that section's digest, the size and the relative path of the same file |
| ReleaseFile.SignRelease | signing.go:109-152 | `Release.gpg` is created exactly when `Release` opens and the create succeeds, and written exactly when the detached signature is also made; `InRelease` is created exactly when `Release.gpg` was written and its create succeeds; both hold signatures of the same Release content; the run succeeds exactly when every step (open, create, detach-sign, create, clear-sign encoder) succeeds |
| RepoPaths.DestructPath | main.go:153-160 | a bucket comes back exactly when the path has at least four components and the second-to-last holds a `-`; its parts hold no `/`, and the architecture holds no `-` |
| RepoPaths.ArchPathShape | main.go:44-46 | a bucket directory is `<root>/dists/<distro>/<section>/binary-<arch>`, with no prefix for an empty root |
| RepoPaths.ArchPathNonEmpty | main.go:44-46 | a bucket directory is never the empty path |
| RepoPaths.DestructArchPath | main.go:153-160 | a file directly inside `ArchPath(d, s, a)` destructs to `(d, s, a)` when `d`, `s` and the file name are single path elements other than `.` and `..`, and `a` has no `-` |
| RepoPaths.DestructTruncatesArch | main.go:155-159 | an architecture containing `-` comes back cut at its first `-` |
| Text.ExtIsDeb | main.go:124 | `filepath.Ext` is `.deb` exactly when the path ends in `.deb` |
| Watcher.Step | main.go:118-138 | an event does something exactly when it is a write or a removal, and then it takes the lock first; a panic happens only for a path that cannot be destructed |
| Watcher.StepCases | main.go:122-132 | the four shapes of a step: nothing, lock and unlock, lock then panic, or a rebuild of the bucket read off the path |
| Watcher.LockDiscipline | main.go:122-133 | the lock is taken once, first, and released once, last, except when destructing panics; a panic happens exactly for a `.deb` write or removal whose path does not destruct |
| Watcher.RebuildIff | main.go:124-127 | a bucket's index is rebuilt exactly for `.deb` writes or removals whose path destructs to that bucket |
| Watcher.ReleaseFollowsIndex | main.go:127-130 | the distribution's Release file is rebuilt after the bucket's index |
| Watcher.RebuildIgnoresIndexOutcome | main.go:127-130 | a failed index build only adds a log entry; what is rebuilt does not change |
| Watcher.OtherOpsIgnored | main.go:122 | create, rename and attribute changes alone do nothing |
| Watcher.TriggerPassesIndexFilter | main.go:124 | a file whose write triggers a rebuild is one the index builder includes |
| Watcher.IndexFilterIsLooser | main.go:124 | the converse fails: `foodeb` is indexed, but writing it does not trigger a rebuild |
| Watcher.WriteRebuildsItsBucket | main.go:122-131 | writing or removing a `.deb` directly in a bucket directory rebuilds that bucket's index and its distribution's Release file, and then releases the lock |
| Gate.ValidateApiKey | http.go:121-131 | a key is valid exactly when the store holds a non-empty value under it |
| Gate.Admit | http.go:26-40 | the wrong method gives 405 before any key check; with keys enabled, a request passes exactly when its `key` is present and valid, otherwise 401; with keys disabled, every request with the right method passes |
| Gate.UploadDefaults | http.go:41-52 | with absent or empty bucket parameters, an upload goes to `stable`/`main`/`all` |
| Gate.UploadKeepsGivenBucket | http.go:41-52 | non-empty `distro`, `section` and `arch` parameters are used as given for the upload directory |
| Gate.StoreParts | http.go:58-82 | the files created are a prefix of the named parts' destinations, and all of them when every part is stored; the status is 200 exactly when every part is stored and the stream ends cleanly, and 500 otherwise, unless the stream fails after every part was stored |
| Gate.DestinationsAreNamedParts | http.go:63-66 | each destination is `<dir>/<name>` for a part with a file name; unnamed parts are skipped |
| Gate.Upload | http.go:23-84 | a wrong method gives 405 and a missing or invalid key gives 401, with no file created; an admitted request without a multipart reader gives 500; an admitted request whose named parts can all be stored, on a stream that ends cleanly, gives 200 with every destination created; one with a part that cannot be stored gives 500; every file created is a destination of a named part and needs an admitted request |
| Gate.UploadIgnoresKeysWhenDisabled | http.go:30-40 | with keys disabled, the key and the store do not affect an upload |
| Gate.UploadDestinationDestructs | http.go:41-66 | an uploaded file lands in the directory of the requested bucket, with defaults for missing parameters, and the watcher reads that bucket back from its path |
| Gate.Delete | http.go:86-119 | a file is removed (status 200) exactly when the method is right, the request is admitted, the body decodes and the target can be removed; the removed path is the bucket directory joined with the file name |
| Gate.DeleteIgnoresKeysWhenDisabled | http.go:93-103 | with keys disabled, the key and the store do not affect a delete |
| Gate.DeleteTargetDestructs | http.go:109 | a delete with single-element names targets a file whose path destructs to the named bucket |
| Gate.DeleteWithoutName | http.go:109 | a delete with an empty file name targets the bucket directory itself |

## Left out

- Decoding: the ar, tar, gzip and xz readers are function parameters (`Inspector.Decoders`). Each yields its items in order and may end in a read error. Their byte formats are not modelled.
- Digests: MD5, SHA1 and SHA256 are function parameters. The model only relies on their hex shape (`Digests.HexHashes`).
- PackageIndex.CreatePackagesGz: `Packages.gz` is recorded as the uncompressed bytes written through the gzip writer. The gzip framing is not modelled.
- PackageIndex.CreatePackagesGz: the errors of `writer.Write` and of closing the files are ignored by the source (packages.go:153-156, 202). The model treats those writes as always succeeding.
- PackageIndex.CreatePackagesGz: the stanzas are written as they are built, so a failing run leaves the stanzas before the failure in both files. The model follows that behaviour rather than an all-or-nothing index.
- PackageIndex.CreatePackagesGz: a failed second open for the digests is only logged (packages.go:178-181). The following copy from the nil file then fails, so both appear as one failed digest read (`hashed` is `None`).
- RepoPaths.ArchPathShape: the shape is that of the uncleaned join; an unclean root or arch (`/repo/`, `a/../b`) gives a different string than Go's `filepath.Join`, as the next line explains.
- RepoPaths.ArchPath: `filepath.Join`'s lexical cleaning (`filepath.Clean`) is not modelled. `Text.PathJoin` only drops empty elements and joins with `/`. The round-trip lemmas therefore require distribution, section and file name to be single elements other than `.` and `..`, where cleaning leaves the last four components unchanged.
- ReleaseFile.CreateRelease: the clock is a parameter. The date arrives already formatted.
- ReleaseFile.CreateRelease: the source ignores errors from the writes to `Release` (the five `fmt.Fprintf` header lines, signing.go:39-43, the six `WriteString` calls, signing.go:92-97) and from its deferred `Close`. After a failed write it still signs a partial file and returns nil. The model treats these writes as always succeeding, so `Release` always holds the full text.
- ReleaseFile.SignRelease: loading the signing key (`createEntityFromPrivateKey`, signing.go:115 and 199-235) exits the process with `log.Fatal` on a bad key. That exit is not modelled: the signer is taken as constructed. The OpenPGP signatures are opaque functions.
- ReleaseFile.SignRelease: the source ignores errors from copying into the clear-sign writer and from closing it (signing.go:148-149). The model counts `InRelease` as written once the encoder was created.
- Watcher.Step: the fsnotify event loop, its error channel (main.go:134-135) and the goroutine are not modelled. The model gives one step per event, and the mutex appears only as `Lock`/`Unlock` actions. The error that `createRelease` returns is discarded by the watcher (main.go:130), so it is not an outcome of the step.
- Watcher.Step: an index out of range in `destructPath` is a panic that ends the process with the mutex held. It is modelled as a final `Panic` action.
- Gate.Upload: a failed `NextPart` (anything but end of stream) leaves a nil part whose `FileName` is dereferenced. That is a panic the server recovers from by dropping the response, so it is modelled as `Dropped`. The file name is taken as the multipart library reports it. An upload does not rebuild the index itself: the watcher sees the written file.
- Gate.Delete: the JSON body is modelled as decoded (`Some`) or not (`None`). The key store is a map, and the filesystem is a predicate saying which paths can be removed.
- HTTP plumbing, logging and the `verbose` messages are not modelled. The exceptions are the log entries the watcher's step records (`LogEvent`, `LogIndexError`).
- The rest of the repository is not part of this model: configuration loading, `createDirs`, the key-management command line, and the static file server.

## Findings

| source | as written | input that shows it | evidently intended | confidence | as-written member | corrected member |
|---|---|---|---|---|---|---|
| packages.go:199-201 | the `\n\n` separator is left off only when the package is the last entry of the whole directory listing, and the listing also holds `Packages` and `Packages.gz`, which this run created before listing (packages.go:145-152, 162) | a bucket holding only `0ad_0.0.26_amd64.deb`: the listing is `[0ad_0.0.26_amd64.deb, Packages, Packages.gz]`, so the only stanza is followed by `\n\n` and the index ends in a blank line | a separator between stanzas only, so the index never ends in a blank line | medium, not executed | PackageIndex.TrailingSeparator | PackageIndex.CorrectedIndexEnd |

=== FILE: digests.dfy ===
/**
 * The three content digests the index and release builders print. The hash
 * algorithms themselves are library code; the model receives them as
 * functions and only relies on their printed shape.
 */
module Digests {

  predicate IsHexDigit(c: char) {
    '0' <= c <= '9' || 'a' <= c <= 'f'
  }

  /** `hex.EncodeToString` of an `n`-byte digest: `2 * n` lower-case hex digits. */
  predicate IsHexOf(s: string, n: nat) {
    |s| == 2 * n && forall i | 0 <= i < |s| :: IsHexDigit(s[i])
  }

  /** Hex-encoded MD5, SHA1 and SHA256 of a file's content. */
  datatype Hashes = Hashes(md5: string -> string, sha1: string -> string, sha256: string -> string)

  /** The digest functions print 16-, 20- and 32-byte digests in hex. */
  ghost predicate HexHashes(h: Hashes) {
    && (forall s :: IsHexOf(h.md5(s), 16))
    && (forall s :: IsHexOf(h.sha1(s), 20))
    && (forall s :: IsHexOf(h.sha256(s), 32))
  }

  /** A hex string holds no character outside the hex digits, such as a space or a newline. */
  lemma HexLacks(s: string, n: nat, c: char)
    requires IsHexOf(s, n) && !IsHexDigit(c)
    ensures c !in s
  {
  }
}

=== FILE: gate.dfy ===
/**
 * The request handling of http.go before and around its file I/O: the
 * method check, the API-key gate, the query defaults of the upload
 * handler, and the paths the upload and delete handlers write and remove.
 * The multipart stream, the JSON body, the key store and the filesystem
 * are inputs: the parts with their file names, the decoded delete object,
 * the stored keys as a map, and predicates saying which paths can be
 * created or removed.
 */
module Gate {
  import opened Wrappers
  import opened Text
  import opened RepoPaths

  const StatusOK: nat := 200
  const StatusUnauthorized: nat := 401
  const StatusMethodNotAllowed: nat := 405
  const StatusInternalServerError: nat := 500

  /** An HTTP request as the handlers see it: its method (`verb`) and its query parameters. */
  datatype Request = Request(verb: string, query: map<string, string>)

  /** `r.URL.Query().Get(k)`: the parameter's value, or empty when absent. */
  function QueryGet(q: map<string, string>, k: string): string {
    if k in q then q[k] else ""
  }

  /** The `APIkeys` bucket's `Get`: the stored value, or nothing for an unknown key. */
  function StoreGet(store: map<string, string>, key: string): string {
    if key in store then store[key] else ""
  }

  /** `validateAPIkey`: the bucket holds a non-empty value under the key. */
  function ValidateApiKey(store: map<string, string>, key: string): (ok: bool)
    ensures ok <==> key in store && store[key] != ""
  {
    |StoreGet(store, key)| != 0
  }

  /**
   * The checks both handlers make before touching anything: the method
   * must be `allowed`, then, when keys are enabled, a present and valid `key` parameter.
   * `None` admits the request; `Some(code)` is the error status sent.
   */
  function Admit(r: Request, allowed: string, keysEnabled: bool, store: map<string, string>): (s: Option<nat>)
    ensures r.verb != allowed ==> s == Some(StatusMethodNotAllowed)
    ensures r.verb == allowed && !keysEnabled ==> s == None
    ensures r.verb == allowed && keysEnabled ==>
      (s == None <==> QueryGet(r.query, "key") != "" && ValidateApiKey(store, QueryGet(r.query, "key")))
    ensures s != None && r.verb == allowed ==> s == Some(StatusUnauthorized)
  {
    if r.verb != allowed then Some(StatusMethodNotAllowed)
    else if !keysEnabled then None
    else
      var key := QueryGet(r.query, "key");
      if key == "" then Some(StatusUnauthorized)
      else if !ValidateApiKey(store, key) then Some(StatusUnauthorized)
      else None
  }

  /** An empty parameter falls back to its default. */
  function Default(v: string, d: string): (r: string)
    ensures v == "" ==> r == d
    ensures v != "" ==> r == v
  {
    if v == "" then d else v
  }

  /** The upload's bucket directory: `distro`, `section` and `arch` default to `stable`, `main` and `all`. */
  function UploadDir(cfg: Config, q: map<string, string>): string {
    ArchPath(cfg,
             Default(QueryGet(q, "distro"), "stable"),
             Default(QueryGet(q, "section"), "main"),
             Default(QueryGet(q, "arch"), "all"))
  }

  /** One multipart part: the file name it carries and whether copying its body succeeds. */
  datatype Part = Part(fileName: string, copies: bool)

  /** The parts in order; `failsAfter` when reading the next part fails instead of ending. */
  datatype PartStream = PartStream(parts: seq<Part>, failsAfter: bool)

  /**
   * How a request ends: with a status, or `Dropped` when the handler
   * panics (a failed `NextPart` returns a nil part whose `FileName` is
   * dereferenced) and the server abandons the response.
   */
  datatype Outcome = Status(code: nat) | Dropped

  /** An upload's outcome and the files it created, in order. */
  datatype UploadRun = UploadRun(outcome: Outcome, created: seq<string>)

  /** The paths an upload writes: one per part with a file name, in order. */
  function Destinations(dir: string, parts: seq<Part>): seq<string>
    decreases |parts|
  {
    if |parts| == 0 then []
    else if parts[0].fileName == "" then Destinations(dir, parts[1..])
    else [PathJoin([dir, parts[0].fileName])] + Destinations(dir, parts[1..])
  }

  /** Every named part can be created at its destination and copied in full. */
  predicate AllStored(dir: string, parts: seq<Part>, creatable: string -> bool) {
    forall i | 0 <= i < |parts| && parts[i].fileName != "" ::
      creatable(PathJoin([dir, parts[i].fileName])) && parts[i].copies
  }

  /**
   * The part loop of the upload handler: the files created are a prefix of
   * the destinations, all of them exactly when every part is stored; the
   * status is 200 when the stream then ends cleanly, 500 at the first part
   * that cannot be stored.
   */
  function StoreParts(dir: string, parts: seq<Part>, failsAfter: bool, creatable: string -> bool): (run: UploadRun)
    ensures run.created <= Destinations(dir, parts)
    ensures run.outcome == Status(StatusOK) <==> AllStored(dir, parts, creatable) && !failsAfter
    ensures run.outcome == Dropped <==> AllStored(dir, parts, creatable) && failsAfter
    ensures run.outcome != Status(StatusOK) && run.outcome != Dropped ==> run.outcome == Status(StatusInternalServerError)
    ensures AllStored(dir, parts, creatable) ==> run.created == Destinations(dir, parts)
    decreases |parts|
  {
    if |parts| == 0 then UploadRun(if failsAfter then Dropped else Status(StatusOK), [])
    else if parts[0].fileName == "" then StoreParts(dir, parts[1..], failsAfter, creatable)
    else
      var dest := PathJoin([dir, parts[0].fileName]);
      if !creatable(dest) then UploadRun(Status(StatusInternalServerError), [])
      else if !parts[0].copies then UploadRun(Status(StatusInternalServerError), [dest])
      else
        var rest := StoreParts(dir, parts[1..], failsAfter, creatable);
        assert AllStored(dir, parts, creatable) <==> AllStored(dir, parts[1..], creatable) by {
          assert forall i | 1 <= i < |parts| :: parts[i] == parts[1..][i - 1];
        }
        UploadRun(rest.outcome, [dest] + rest.created)
  }

  /**
   * `uploadHandler`: gate, defaults, then every named part is written to
   * its destination; `body` is `None` when no multipart reader can be made.
   */
  function Upload(cfg: Config, r: Request, store: map<string, string>,
                  body: Option<PartStream>, creatable: string -> bool): (run: UploadRun)
    ensures r.verb != "POST" ==> run == UploadRun(Status(StatusMethodNotAllowed), [])
    ensures r.verb == "POST" && cfg.keysEnabled && QueryGet(r.query, "key") == "" ==>
      run == UploadRun(Status(StatusUnauthorized), [])
    ensures var key := QueryGet(r.query, "key");
      r.verb == "POST" && cfg.keysEnabled && !(key in store && store[key] != "") ==>
        run == UploadRun(Status(StatusUnauthorized), [])
    ensures run.created <= (if body.Some? then Destinations(UploadDir(cfg, r.query), body.value.parts) else [])
    ensures var key := QueryGet(r.query, "key");
      run.created != [] ==> r.verb == "POST" && (!cfg.keysEnabled || (key in store && store[key] != ""))
    ensures Admit(r, "POST", cfg.keysEnabled, store).None? && body.None? ==>
      run == UploadRun(Status(StatusInternalServerError), [])
    ensures Admit(r, "POST", cfg.keysEnabled, store).None? && body.Some?
            && AllStored(UploadDir(cfg, r.query), body.value.parts, creatable) && !body.value.failsAfter ==>
      run == UploadRun(Status(StatusOK), Destinations(UploadDir(cfg, r.query), body.value.parts))
    ensures Admit(r, "POST", cfg.keysEnabled, store).None? && body.Some?
            && !AllStored(UploadDir(cfg, r.query), body.value.parts, creatable) ==>
      run.outcome == Status(StatusInternalServerError)
  {
    match Admit(r, "POST", cfg.keysEnabled, store)
    case Some(code) => UploadRun(Status(code), [])
    case None =>
      match body
      case None => UploadRun(Status(StatusInternalServerError), [])
      case Some(ps) => StoreParts(UploadDir(cfg, r.query), ps.parts, ps.failsAfter, creatable)
  }

  /** The JSON body of a delete request. */
  datatype DeleteObj = DeleteObj(fileName: string, distroName: string, arch: string, section: string)

  /** A delete's status and the path it removed. */
  datatype DeleteRun = DeleteRun(code: nat, removed: Option<string>)

  /** The path a delete removes; no defaults apply. */
  function DeleteTarget(cfg: Config, o: DeleteObj): string {
    PathJoin([ArchPath(cfg, o.distroName, o.section, o.arch), o.fileName])
  }

  /**
   * `deleteHandler`: gate, decode, remove. `body` is `None` when the JSON
   * cannot be decoded. Success writes no explicit status, so it is 200.
   */
  function Delete(cfg: Config, r: Request, store: map<string, string>,
                  body: Option<DeleteObj>, removable: string -> bool): (run: DeleteRun)
    ensures r.verb != "DELETE" ==> run == DeleteRun(StatusMethodNotAllowed, None)
    ensures var key := QueryGet(r.query, "key");
      r.verb == "DELETE" && cfg.keysEnabled && !(key in store && store[key] != "") ==>
        run == DeleteRun(StatusUnauthorized, None)
    ensures run.removed.Some? <==> run.code == StatusOK
    ensures run.removed.Some? ==> body.Some? && run.removed.value == DeleteTarget(cfg, body.value)
    ensures var key := QueryGet(r.query, "key");
      run.removed.Some? <==>
        && r.verb == "DELETE"
        && (!cfg.keysEnabled || (key != "" && key in store && store[key] != ""))
        && body.Some? && removable(DeleteTarget(cfg, body.value))
  {
    match Admit(r, "DELETE", cfg.keysEnabled, store)
    case Some(code) => DeleteRun(code, None)
    case None =>
      match body
      case None => DeleteRun(StatusInternalServerError, None)
      case Some(o) =>
        var target := DeleteTarget(cfg, o);
        if removable(target) then DeleteRun(StatusOK, Some(target))
        else DeleteRun(StatusInternalServerError, None)
  }

  /**
   * With keys disabled the `key` parameter and the key store play no part:
   * any key and any store give the same upload.
   */
  lemma UploadIgnoresKeysWhenDisabled(cfg: Config, r: Request, k: string,
                                      store1: map<string, string>, store2: map<string, string>,
                                      body: Option<PartStream>, creatable: string -> bool)
    requires !cfg.keysEnabled
    ensures Upload(cfg, r, store1, body, creatable)
         == Upload(cfg, Request(r.verb, r.query["key" := k]), store2, body, creatable)
  {
    var q := r.query["key" := k];
    assert QueryGet(q, "distro") == QueryGet(r.query, "distro");
    assert QueryGet(q, "section") == QueryGet(r.query, "section");
    assert QueryGet(q, "arch") == QueryGet(r.query, "arch");
  }

  /** The same holds for deletes. */
  lemma DeleteIgnoresKeysWhenDisabled(cfg: Config, r: Request, k: string,
                                      store1: map<string, string>, store2: map<string, string>,
                                      body: Option<DeleteObj>, removable: string -> bool)
    requires !cfg.keysEnabled
    ensures Delete(cfg, r, store1, body, removable)
         == Delete(cfg, Request(r.verb, r.query["key" := k]), store2, body, removable)
  {
  }

  /**
   * An uploaded file lands where the watcher looks: its path destructs to
   * the requested bucket, with `stable`, `main` and `all` for missing
   * parameters, as long as distribution and section are single path
   * elements that the join's cleaning leaves alone.
   */
  lemma UploadDestinationDestructs(cfg: Config, q: map<string, string>, f: string)
    requires IsElement(Default(QueryGet(q, "distro"), "stable")) && IsElement(Default(QueryGet(q, "section"), "main"))
    requires '/' !in QueryGet(q, "arch") && '-' !in QueryGet(q, "arch")
    requires IsElement(f)
    ensures DestructPath(PathJoin([UploadDir(cfg, q), f]))
         == Some(Bucket(Default(QueryGet(q, "distro"), "stable"),
                        Default(QueryGet(q, "section"), "main"),
                        Default(QueryGet(q, "arch"), "all")))
  {
    var d := Default(QueryGet(q, "distro"), "stable");
    var s := Default(QueryGet(q, "section"), "main");
    var a := Default(QueryGet(q, "arch"), "all");
    ArchPathNonEmpty(cfg, d, s, a);
    PathJoinPair(ArchPath(cfg, d, s, a), f);
    DestructArchPath(cfg, d, s, a, f);
  }

  /**
   * With no bucket parameters, or empty ones (`?distro=`), an upload goes
   * to `dists/stable/main/binary-all`.
   */
  lemma UploadDefaults(cfg: Config, q: map<string, string>)
    requires QueryGet(q, "distro") == "" && QueryGet(q, "section") == "" && QueryGet(q, "arch") == ""
    ensures UploadDir(cfg, q) == ArchPath(cfg, "stable", "main", "all")
  {
  }

  /** Non-empty bucket parameters are used as given. */
  lemma UploadKeepsGivenBucket(cfg: Config, q: map<string, string>)
    requires QueryGet(q, "distro") != "" && QueryGet(q, "section") != "" && QueryGet(q, "arch") != ""
    ensures UploadDir(cfg, q) == ArchPath(cfg, QueryGet(q, "distro"), QueryGet(q, "section"), QueryGet(q, "arch"))
  {
  }

  /** A delete names the file it removes inside the bucket directory. */
  lemma DeleteTargetDestructs(cfg: Config, o: DeleteObj)
    requires IsElement(o.distroName) && IsElement(o.section) && IsElement(o.fileName)
    requires '/' !in o.arch && '-' !in o.arch
    ensures DestructPath(DeleteTarget(cfg, o)) == Some(Bucket(o.distroName, o.section, o.arch))
  {
    ArchPathNonEmpty(cfg, o.distroName, o.section, o.arch);
    PathJoinPair(ArchPath(cfg, o.distroName, o.section, o.arch), o.fileName);
    DestructArchPath(cfg, o.distroName, o.section, o.arch, o.fileName);
  }

  /**
   * A delete without a file name targets the bucket directory itself,
   * since the join drops the empty element.
   */
  lemma DeleteWithoutName(cfg: Config, o: DeleteObj)
    requires o.fileName == ""
    ensures DeleteTarget(cfg, o) == ArchPath(cfg, o.distroName, o.section, o.arch)
  {
    ArchPathNonEmpty(cfg, o.distroName, o.section, o.arch);
    PathJoinPair(ArchPath(cfg, o.distroName, o.section, o.arch), o.fileName);
  }

  /** Each destination of a named part is `<dir>/<name>`. */
  lemma {:induction false} DestinationsAreNamedParts(dir: string, parts: seq<Part>)
    requires dir != ""
    ensures forall k | 0 <= k < |Destinations(dir, parts)| ::
      exists i | 0 <= i < |parts| :: parts[i].fileName != "" && Destinations(dir, parts)[k] == dir + "/" + parts[i].fileName
    ensures |Destinations(dir, parts)| <= |parts|
    decreases |parts|
  {
    if |parts| > 0 {
      DestinationsAreNamedParts(dir, parts[1..]);
      var rest := Destinations(dir, parts[1..]);
      forall k | 0 <= k < |rest|
        ensures exists i | 0 <= i < |parts| :: parts[i].fileName != "" && rest[k] == dir + "/" + parts[i].fileName
      {
        var i :| 0 <= i < |parts[1..]| && parts[1..][i].fileName != "" && rest[k] == dir + "/" + parts[1..][i].fileName;
        assert parts[i + 1] == parts[1..][i];
      }
      if parts[0].fileName != "" {
        PathJoinPair(dir, parts[0].fileName);
        var ds := Destinations(dir, parts);
        assert ds == [dir + "/" + parts[0].fileName] + rest;
        forall k | 0 <= k < |ds|
          ensures exists i | 0 <= i < |parts| :: parts[i].fileName != "" && ds[k] == dir + "/" + parts[i].fileName
        {
          if k == 0 {
            assert ds[0] == dir + "/" + parts[0].fileName;
          } else {
            assert ds[k] == rest[k - 1];
          }
        }
      } else {
        assert Destinations(dir, parts) == rest;
      }
    } else {
      assert Destinations(dir, parts) == [];
    }
  }
}

=== FILE: inspector.dfy ===
/**
 * The package inspector of packages.go: a Debian binary package is an `ar`
 * archive; the first member whose name mentions `control.tar` is a
 * compressed tar whose `control` entry holds the package's control text.
 *
 * The ar reader, the gzip/xz decompressors and the tar reader are library
 * code. The model receives what they yield: the ar members in order, and a
 * decompressor that either refuses to start or yields tar entries in order.
 * Each reader may end with a read error instead of a clean end of stream.
 */
module Inspector {
  import opened Wrappers
  import opened Text

  /** The closed choice of control-archive compression (packages.go:24-29). */
  datatype Compression = LZMA | GZIP

  datatype ArMember = ArMember(name: string, data: string)

  /** The members an ar reader yields, then end of stream or, if `failsAfter`, a read error. */
  datatype ArStream = ArStream(members: seq<ArMember>, failsAfter: bool)

  /** Tar type flags the inspector distinguishes (`tar.TypeReg`, `tar.TypeDir`). */
  const TypeReg: char := '0'
  const TypeDir: char := '5'

  datatype TarEntry = TarEntry(name: string, typeflag: char, content: string)

  /** The entries a tar reader yields, then end of stream or, if `failsAfter`, a read error. */
  datatype TarStream = TarStream(entries: seq<TarEntry>, failsAfter: bool)

  /**
   * The library decoders: `readAr` parses a package file, `decompress`
   * stands for `gzip.NewReader`/`xz.NewReader` followed by `tar.NewReader`
   * and yields `None` when the decompressor cannot be constructed.
   */
  datatype Decoders = Decoders(
    readAr: string -> ArStream,
    decompress: (Compression, string) -> Option<TarStream>)

  datatype InspectError =
    | CannotOpen                          // os.Open failed
    | ArReadFailed                        // the ar reader reported an error
    | NoControlFile(member: string)       // a `control.tar` member with an unsupported suffix
    | ReaderFailed(compression: Compression)  // decompressor construction failed
    | TarReadFailed                       // the tar reader reported an error

  /** The member test of packages.go:56. */
  predicate IsControlMember(name: string) {
    Contains(name, "control.tar")
  }

  /** The compression named by a control member, trailing `/` ignored (packages.go:57-66). */
  function CompressionOf(name: string): Option<Compression> {
    var base := TrimRight(name, '/');
    if base == "control.tar.gz" then Some(GZIP)
    else if base == "control.tar.xz" then Some(LZMA)
    else None
  }

  /** Every name that selects a decompressor passes the member test, so dispatch never sees other members. */
  lemma CompressionOfControlMember(name: string)
    requires CompressionOf(name).Some?
    ensures IsControlMember(name)
    ensures CompressionOf(name) == Some(GZIP) <==> TrimRight(name, '/') == "control.tar.gz"
    ensures CompressionOf(name) == Some(LZMA) <==> TrimRight(name, '/') == "control.tar.xz"
  {
    var base := TrimRight(name, '/');
    assert base[..11] == "control.tar";
    assert name[..|base|][..11] == name[0..11];
    assert OccursAt(name, "control.tar", 0);
  }

  /** Text that ends in exactly one newline. */
  predicate EndsInOneNewline(t: string) {
    |t| >= 1 && t[|t| - 1] == '\n' && (|t| == 1 || t[|t| - 2] != '\n')
  }

  /**
   * packages.go:127: trailing newlines are trimmed and one is appended. The
   * result ends in exactly one newline, everything before it is the input's
   * prefix verbatim, and only newlines were dropped from the input.
   */
  function NormaliseControl(s: string): (r: string)
    ensures EndsInOneNewline(r)
    ensures |r| - 1 <= |s| && r[..|r| - 1] == s[..|r| - 1]
    ensures forall i | |r| - 1 <= i < |s| :: s[i] == '\n'
  {
    TrimRight(s, '\n') + "\n"
  }

  /** `n` newline characters. */
  function Newlines(n: nat): (r: string)
    ensures |r| == n && forall i | 0 <= i < n :: r[i] == '\n'
  {
    seq(n, _ => '\n')
  }

  /**
   * Control text with any number of trailing newlines comes back as its
   * body followed by exactly one newline.
   */
  lemma {:induction false} NormaliseBody(body: string, n: nat)
    requires |body| == 0 || body[|body| - 1] != '\n'
    ensures NormaliseControl(body + Newlines(n)) == body + "\n"
    decreases n
  {
    if n == 0 {
      assert body + Newlines(0) == body;
    } else {
      var s := body + Newlines(n);
      assert s[..|s| - 1] == body + Newlines(n - 1);
      NormaliseBody(body, n - 1);
    }
  }

  /** Normalising twice changes nothing. */
  lemma NormaliseIdempotent(s: string)
    ensures NormaliseControl(NormaliseControl(s)) == NormaliseControl(s)
  {
    var t := TrimRight(s, '\n');
    assert t + "\n" == t + Newlines(1);
    NormaliseBody(t, 1);
  }

  /** The entry test of packages.go:120-128: a regular file named `control` or `./control`. */
  predicate IsControlEntry(e: TarEntry) {
    e.typeflag == TypeReg && (e.name == "control" || e.name == "./control")
  }

  /**
   * The tar loop of `inspectPackageControl` (packages.go:106-136): the first
   * control entry wins and is normalised; directories, other regular files
   * and other type flags are skipped; running out of entries gives the
   * empty text, a read error gives an error.
   */
  function ScanTar(entries: seq<TarEntry>, failsAfter: bool): (r: Result<string, InspectError>)
    ensures r.Failure? ==> r.error == TarReadFailed
    ensures ControlShaped(r)
    decreases |entries|
  {
    if |entries| == 0 then
      if failsAfter then Failure(TarReadFailed) else Success("")
    else if IsControlEntry(entries[0]) then
      Success(NormaliseControl(entries[0].content))
    else
      ScanTar(entries[1..], failsAfter)
  }

  /**
   * The tar scan returns the normalised content of the first control entry;
   * without one it returns the empty text, or an error if the reader failed.
   */
  lemma ScanTarFindsFirstControl(entries: seq<TarEntry>, failsAfter: bool)
    ensures (forall i | 0 <= i < |entries| :: !IsControlEntry(entries[i])) ==>
      ScanTar(entries, failsAfter) == (if failsAfter then Failure(TarReadFailed) else Success(""))
    ensures forall k | 0 <= k < |entries| && IsControlEntry(entries[k]) ::
      (forall i | 0 <= i < k :: !IsControlEntry(entries[i])) ==>
        ScanTar(entries, failsAfter) == Success(NormaliseControl(entries[k].content))
  {
    if forall i | 0 <= i < |entries| :: !IsControlEntry(entries[i]) {
      ScanTarNoControl(entries, failsAfter);
    }
    forall k | 0 <= k < |entries| && IsControlEntry(entries[k])
      ensures (forall i | 0 <= i < k :: !IsControlEntry(entries[i])) ==>
        ScanTar(entries, failsAfter) == Success(NormaliseControl(entries[k].content))
    {
      if forall i | 0 <= i < k :: !IsControlEntry(entries[i]) {
        ScanTarFirstControl(entries, failsAfter, k);
      }
    }
  }

  /** Without a control entry the scan reaches the end of the stream. */
  lemma {:induction false} ScanTarNoControl(entries: seq<TarEntry>, failsAfter: bool)
    requires forall i | 0 <= i < |entries| :: !IsControlEntry(entries[i])
    ensures ScanTar(entries, failsAfter) == (if failsAfter then Failure(TarReadFailed) else Success(""))
    decreases |entries|
  {
    if |entries| > 0 {
      assert forall i | 0 <= i < |entries| - 1 :: entries[1..][i] == entries[i + 1];
      ScanTarNoControl(entries[1..], failsAfter);
    }
  }

  /** The scan stops at the first control entry, `k`. */
  lemma {:induction false} ScanTarFirstControl(entries: seq<TarEntry>, failsAfter: bool, k: nat)
    requires k < |entries| && IsControlEntry(entries[k])
    requires forall i | 0 <= i < k :: !IsControlEntry(entries[i])
    ensures ScanTar(entries, failsAfter) == Success(NormaliseControl(entries[k].content))
    decreases k
  {
    if k > 0 {
      assert entries[1..][k - 1] == entries[k];
      assert forall i | 0 <= i < k - 1 :: entries[1..][i] == entries[i + 1];
      ScanTarFirstControl(entries[1..], failsAfter, k - 1);
    }
  }

  /** Successful inspection text is empty or ends in exactly one newline. */
  predicate ControlShaped(r: Result<string, InspectError>) {
    r.Success? ==> r.value == "" || EndsInOneNewline(r.value)
  }

  /**
   * `inspectPackageControl` (packages.go:79-137): a decompressor that cannot
   * be constructed is an error; otherwise the tar entries are scanned.
   */
  function InspectControl(c: Compression, buf: string, dec: Decoders): (r: Result<string, InspectError>)
    ensures dec.decompress(c, buf).None? <==> r == Failure(ReaderFailed(c))
    ensures ControlShaped(r)
  {
    match dec.decompress(c, buf)
    case None => Failure(ReaderFailed(c))
    case Some(tar) => ScanTar(tar.entries, tar.failsAfter)
  }

  /** What happens once the control member is found (packages.go:57-72). */
  function Dispatch(m: ArMember, dec: Decoders): Result<string, InspectError> {
    match CompressionOf(m.name)
    case None => Failure(NoControlFile(m.name))
    case Some(c) => InspectControl(c, m.data, dec)
  }

  /**
   * The ar loop of `inspectPackage` (packages.go:45-76): only the first
   * member mentioning `control.tar` is dispatched; without one the result is
   * the empty text, or an error if the reader failed.
   */
  function ScanMembers(members: seq<ArMember>, failsAfter: bool, dec: Decoders): (r: Result<string, InspectError>)
    ensures ControlShaped(r)
    decreases |members|
  {
    if |members| == 0 then
      if failsAfter then Failure(ArReadFailed) else Success("")
    else if IsControlMember(members[0].name) then
      Dispatch(members[0], dec)
    else
      ScanMembers(members[1..], failsAfter, dec)
  }

  /**
   * Only the first member mentioning `control.tar` is dispatched; without
   * one the result is the empty text, or an error if the reader failed.
   */
  lemma ScanMembersFindsFirstControl(members: seq<ArMember>, failsAfter: bool, dec: Decoders)
    ensures (forall i | 0 <= i < |members| :: !IsControlMember(members[i].name)) ==>
      ScanMembers(members, failsAfter, dec) == (if failsAfter then Failure(ArReadFailed) else Success(""))
    ensures forall k | 0 <= k < |members| && IsControlMember(members[k].name) ::
      (forall i | 0 <= i < k :: !IsControlMember(members[i].name)) ==>
        ScanMembers(members, failsAfter, dec) == Dispatch(members[k], dec)
  {
    if forall i | 0 <= i < |members| :: !IsControlMember(members[i].name) {
      ScanMembersNoControl(members, failsAfter, dec);
    }
    forall k | 0 <= k < |members| && IsControlMember(members[k].name)
      ensures (forall i | 0 <= i < k :: !IsControlMember(members[i].name)) ==>
        ScanMembers(members, failsAfter, dec) == Dispatch(members[k], dec)
    {
      if forall i | 0 <= i < k :: !IsControlMember(members[i].name) {
        ScanMembersFirstControl(members, failsAfter, dec, k);
      }
    }
  }

  /** Without a control member the scan reaches the end of the stream. */
  lemma {:induction false} ScanMembersNoControl(members: seq<ArMember>, failsAfter: bool, dec: Decoders)
    requires forall i | 0 <= i < |members| :: !IsControlMember(members[i].name)
    ensures ScanMembers(members, failsAfter, dec) == (if failsAfter then Failure(ArReadFailed) else Success(""))
    decreases |members|
  {
    if |members| > 0 {
      assert forall i | 0 <= i < |members| - 1 :: members[1..][i] == members[i + 1];
      ScanMembersNoControl(members[1..], failsAfter, dec);
    }
  }

  /** The scan dispatches the first control member, `k`. */
  lemma {:induction false} ScanMembersFirstControl(members: seq<ArMember>, failsAfter: bool, dec: Decoders, k: nat)
    requires k < |members| && IsControlMember(members[k].name)
    requires forall i | 0 <= i < k :: !IsControlMember(members[i].name)
    ensures ScanMembers(members, failsAfter, dec) == Dispatch(members[k], dec)
    decreases k
  {
    if k > 0 {
      assert members[1..][k - 1] == members[k];
      assert forall i | 0 <= i < k - 1 :: members[1..][i] == members[i + 1];
      ScanMembersFirstControl(members[1..], failsAfter, dec, k - 1);
    }
  }

  /**
   * `inspectPackage` (packages.go:31-77) on a file that is absent (`None`)
   * or holds the given bytes.
   */
  function InspectPackage(file: Option<string>, dec: Decoders): (r: Result<string, InspectError>)
    ensures file.None? ==> r == Failure(CannotOpen)
    ensures ControlShaped(r)
  {
    match file
    case None => Failure(CannotOpen)
    case Some(bytes) =>
      var ar := dec.readAr(bytes);
      ScanMembers(ar.members, ar.failsAfter, dec)
  }

  /**
   * The asymmetry of the two "not found" cases: a package without any
   * `control.tar` member inspects to the empty text, while one whose first
   * control member has an unsupported compression is an error.
   */
  lemma MissingVersusUnsupported(dec: Decoders, bytes: string, m: ArMember)
    requires dec.readAr(bytes) == ArStream([ArMember("debian-binary", "2.0\n"), m], false)
    ensures !IsControlMember(m.name) ==> InspectPackage(Some(bytes), dec) == Success("")
    ensures IsControlMember(m.name) && CompressionOf(m.name).None? ==>
      InspectPackage(Some(bytes), dec) == Failure(NoControlFile(m.name))
  {
    NotContainsMissingChar("debian-binary", "control.tar", '.');
    var ms := dec.readAr(bytes).members;
    ScanMembersFindsFirstControl(ms, false, dec);
    assert !IsControlMember(ms[0].name);
    if IsControlMember(m.name) {
      assert ms[1] == m;
      assert InspectPackage(Some(bytes), dec) == Dispatch(m, dec);
    }
  }

  /** `control.tar.zst` names a control member that no decompressor handles. */
  lemma ZstdIsUnsupported()
    ensures IsControlMember("control.tar.zst") && CompressionOf("control.tar.zst").None?
  {
    assert OccursAt("control.tar.zst", "control.tar", 0);
    assert TrimRight("control.tar.zst", '/') == "control.tar.zst";
  }
}

=== FILE: package_index.dfy ===
/**
 * The index builder of packages.go (`createPackagesGz`): for one bucket it
 * lists the directory, inspects and hashes every file whose name ends in
 * `deb`, and writes the stanzas to `Packages` and, gzip-compressed, to
 * `Packages.gz`. The gzip encoding is library code; the model records the
 * uncompressed bytes each file receives.
 */
module PackageIndex {
  import opened Wrappers
  import opened Text
  import opened Digests
  import opened Inspector
  import opened RepoPaths

  /**
   * One `ioutil.ReadDir` entry: name and listed size, the bytes the
   * inspection reads from it, and the bytes the second open and copy for
   * the digests yield (`None`: that open or read fails).
   */
  datatype DirEntry = DirEntry(name: string, size: nat, content: Option<string>, hashed: Option<string>)

  /** The library code the builder calls: package decoders and digests. */
  datatype Codecs = Codecs(dec: Decoders, hashes: Hashes)

  datatype IndexError =
    | CreateFailed(file: string)
    | ListingFailed
    | InspectFailed(name: string, cause: InspectError)
    | HashFailed(name: string)

  /**
   * What one run leaves behind: the content of `Packages` and the
   * uncompressed content of `Packages.gz` (`None`: not created by this run),
   * and the error returned, if any.
   */
  datatype IndexRun = IndexRun(packages: Option<string>, packagesGz: Option<string>, err: Option<IndexError>)

  /** The listing filter of packages.go:167. */
  predicate IsDebName(name: string) {
    EndsWith(name, "deb")
  }

  /** The `Filename:` value of packages.go:175: `dists/<distro>/<section>/binary-<arch>/<name>`. */
  function FilenameField(b: Bucket, name: string): string {
    PathJoin(["dists", b.distro, b.section, "binary-" + b.arch, name])
  }

  /** The stanza of packages.go:174-198 for a package with control text `control` and bytes `data`. */
  function Stanza(control: string, b: Bucket, e: DirEntry, data: string, h: Hashes): string {
    control
    + "Filename: " + FilenameField(b, e.name) + "\n"
    + "Size: " + NatToString(e.size) + "\n"
    + "MD5sum: " + h.md5(data) + "\n"
    + "SHA1: " + h.sha1(data) + "\n"
    + "SHA256: " + h.sha256(data) + "\n"
  }

  /** The five field lines every stanza carries after the control text, in order. */
  function FieldLines(b: Bucket, e: DirEntry, data: string, h: Hashes): seq<string> {
    [ "Filename: " + FilenameField(b, e.name),
      "Size: " + NatToString(e.size),
      "MD5sum: " + h.md5(data),
      "SHA1: " + h.sha1(data),
      "SHA256: " + h.sha256(data) ]
  }

  /**
   * What the loop body of packages.go:166-204 adds for listing position
   * `j`: nothing for a non-package, the stanza plus a `\n\n` separator
   * unless `j` is the last position of the whole listing, or the error
   * that aborts the run: the inspection's, or a failed read for the digests
   * (a failed open is only logged, and copying from the nil file then fails).
   */
  function Contribution(b: Bucket, listing: seq<DirEntry>, j: nat, c: Codecs): Result<string, IndexError>
    requires j < |listing|
  {
    var e := listing[j];
    if !IsDebName(e.name) then Success("")
    else
      match InspectPackage(e.content, c.dec)
      case Failure(err) => Failure(InspectFailed(e.name, err))
      case Success(control) =>
        match e.hashed
        case None => Failure(HashFailed(e.name))
        case Some(data) =>
          Success(Stanza(control, b, e, data, c.hashes) + (if j != |listing| - 1 then "\n\n" else ""))
  }

  /** No position before `n` aborts the run. */
  ghost predicate OkBefore(b: Bucket, listing: seq<DirEntry>, n: nat, c: Codecs)
    requires n <= |listing|
  {
    forall j | 0 <= j < n :: Contribution(b, listing, j, c).Success?
  }

  /** The first position whose contribution is an error, or `|listing|` when there is none. */
  ghost function FirstFailure(b: Bucket, listing: seq<DirEntry>, c: Codecs): (k: nat)
    ensures k <= |listing|
    ensures OkBefore(b, listing, k, c)
    ensures k < |listing| ==> Contribution(b, listing, k, c).Failure?
  {
    FirstFailureFrom(b, listing, 0, c)
  }

  ghost function FirstFailureFrom(b: Bucket, listing: seq<DirEntry>, n: nat, c: Codecs): (k: nat)
    requires n <= |listing| && OkBefore(b, listing, n, c)
    ensures n <= k <= |listing|
    ensures OkBefore(b, listing, k, c)
    ensures k < |listing| ==> Contribution(b, listing, k, c).Failure?
    decreases |listing| - n
  {
    if n == |listing| || Contribution(b, listing, n, c).Failure? then n
    else FirstFailureFrom(b, listing, n + 1, c)
  }

  /** The bytes written for positions before `n`. */
  function Written(b: Bucket, listing: seq<DirEntry>, n: nat, c: Codecs): string
    requires n <= |listing|
  {
    if n == 0 then "" else Written(b, listing, n - 1, c) + Contribution(b, listing, n - 1, c).GetOr("")
  }

  /**
   * `createPackagesGz` (packages.go:139-208). `Packages` and `Packages.gz`
   * are created before the directory is listed, and every stanza is written
   * to both through one multi-writer as soon as it is complete: a failure
   * leaves the stanzas of the positions before it in both files.
   */
  method CreatePackagesGz(b: Bucket, packagesCreatable: bool, gzCreatable: bool,
                          listing: Option<seq<DirEntry>>, c: Codecs) returns (run: IndexRun)
    ensures !packagesCreatable ==> run == IndexRun(None, None, Some(CreateFailed("Packages")))
    ensures packagesCreatable && !gzCreatable ==> run == IndexRun(Some(""), None, Some(CreateFailed("Packages.gz")))
    ensures packagesCreatable && gzCreatable ==> run.packages.Some? && run.packagesGz == run.packages
    ensures packagesCreatable && gzCreatable && listing.None? ==> run == IndexRun(Some(""), Some(""), Some(ListingFailed))
    ensures packagesCreatable && gzCreatable && listing.Some? ==>
      (run.err.None? <==> OkBefore(b, listing.value, |listing.value|, c))
    ensures run.err.None? ==> listing.Some? && run.packages == Some(Written(b, listing.value, |listing.value|, c))
    ensures run.err.Some? && packagesCreatable && gzCreatable && listing.Some? ==>
      var k := FirstFailure(b, listing.value, c);
      && k < |listing.value|
      && run.err == Some(Contribution(b, listing.value, k, c).error)
      && run.packages == Some(Written(b, listing.value, k, c))
    ensures run.err.Some? && packagesCreatable && gzCreatable && listing.Some? ==>
      var e := listing.value[FirstFailure(b, listing.value, c)];
      && IsDebName(e.name)
      && (run.err == Some(HashFailed(e.name)) <==> InspectPackage(e.content, c.dec).Success? && e.hashed.None?)
  {
    if !packagesCreatable {
      return IndexRun(None, None, Some(CreateFailed("Packages")));
    }
    if !gzCreatable {
      return IndexRun(Some(""), None, Some(CreateFailed("Packages.gz")));
    }
    if listing.None? {
      return IndexRun(Some(""), Some(""), Some(ListingFailed));
    }
    var out, err := WriteRecords(b, listing.value, c);
    run := IndexRun(Some(out), Some(out), err);
  }

  /**
   * The loop of packages.go:166-204: the bytes written to both files, and
   * the error of the first position that fails, if any.
   */
  method WriteRecords(b: Bucket, listing: seq<DirEntry>, c: Codecs) returns (out: string, err: Option<IndexError>)
    ensures err.None? <==> OkBefore(b, listing, |listing|, c)
    ensures err.None? ==> out == Written(b, listing, |listing|, c)
    ensures err.Some? ==>
      var k := FirstFailure(b, listing, c);
      && k < |listing|
      && err == Some(Contribution(b, listing, k, c).error)
      && out == Written(b, listing, k, c)
  {
    out := "";
    var i := 0;
    while i < |listing|
      invariant i <= |listing|
      invariant OkBefore(b, listing, i, c)
      invariant out == Written(b, listing, i, c)
    {
      var piece := Contribution(b, listing, i, c);
      if piece.Failure? {
        FirstFailureAt(b, listing, i, c);
        return out, Some(piece.error);
      }
      OkBeforeStep(b, listing, i, c);
      out := out + piece.value;
      i := i + 1;
    }
    err := None;
  }

  /** A position that succeeds extends the prefix without failures. */
  lemma OkBeforeStep(b: Bucket, listing: seq<DirEntry>, i: nat, c: Codecs)
    requires i < |listing| && OkBefore(b, listing, i, c)
    requires Contribution(b, listing, i, c).Success?
    ensures OkBefore(b, listing, i + 1, c)
    ensures Written(b, listing, i + 1, c) == Written(b, listing, i, c) + Contribution(b, listing, i, c).value
  {
  }

  /** A failing position with none failing before it is the first failure. */
  lemma FirstFailureAt(b: Bucket, listing: seq<DirEntry>, i: nat, c: Codecs)
    requires i < |listing| && OkBefore(b, listing, i, c)
    requires Contribution(b, listing, i, c).Failure?
    ensures FirstFailure(b, listing, c) == i
  {
  }

  /** The listing positions before `n` that hold packages, in increasing order. */
  function DebPositions(listing: seq<DirEntry>, n: nat): (ps: seq<nat>)
    requires n <= |listing|
    ensures forall k | 0 <= k < |ps| :: ps[k] < n
  {
    if n == 0 then []
    else if IsDebName(listing[n - 1].name) then DebPositions(listing, n - 1) + [n - 1]
    else DebPositions(listing, n - 1)
  }

  /** The positions are exactly the packages before `n`, each once, in increasing order. */
  lemma DebPositionsSpec(listing: seq<DirEntry>, n: nat)
    requires n <= |listing|
    ensures var ps := DebPositions(listing, n);
      && (forall k | 0 <= k < |ps| :: IsDebName(listing[ps[k]].name))
      && (forall j | 0 <= j < n && IsDebName(listing[j].name) :: j in ps)
      && (forall k1, k2 | 0 <= k1 < k2 < |ps| :: ps[k1] < ps[k2])
  {
    DebPositionsSound(listing, n);
    DebPositionsComplete(listing, n);
    DebPositionsIncreasing(listing, n);
  }

  /** Every position listed holds a package. */
  lemma {:induction false} DebPositionsSound(listing: seq<DirEntry>, n: nat)
    requires n <= |listing|
    ensures forall k | 0 <= k < |DebPositions(listing, n)| :: IsDebName(listing[DebPositions(listing, n)[k]].name)
  {
    if n > 0 {
      DebPositionsSound(listing, n - 1);
      var prev := DebPositions(listing, n - 1);
      if IsDebName(listing[n - 1].name) {
        var ps := prev + [n - 1];
        assert DebPositions(listing, n) == ps;
        forall k | 0 <= k < |ps|
          ensures IsDebName(listing[ps[k]].name)
        {
          if k < |prev| {
            assert ps[k] == prev[k];
            assert IsDebName(listing[prev[k]].name);
          }
        }
      }
    }
  }

  /** Every package before `n` is listed. */
  lemma {:induction false} DebPositionsComplete(listing: seq<DirEntry>, n: nat)
    requires n <= |listing|
    ensures forall j | 0 <= j < n && IsDebName(listing[j].name) :: j in DebPositions(listing, n)
  {
    if n > 0 {
      DebPositionsComplete(listing, n - 1);
      var prev := DebPositions(listing, n - 1);
      if IsDebName(listing[n - 1].name) {
        assert DebPositions(listing, n) == prev + [n - 1];
      } else {
        assert DebPositions(listing, n) == prev;
      }
    }
  }

  /** The positions increase strictly, so each package is listed once. */
  lemma {:induction false} DebPositionsIncreasing(listing: seq<DirEntry>, n: nat)
    requires n <= |listing|
    ensures forall k1, k2 | 0 <= k1 < k2 < |DebPositions(listing, n)| :: DebPositions(listing, n)[k1] < DebPositions(listing, n)[k2]
  {
    if n > 0 {
      DebPositionsIncreasing(listing, n - 1);
      var prev := DebPositions(listing, n - 1);
      if IsDebName(listing[n - 1].name) {
        var ps := prev + [n - 1];
        assert DebPositions(listing, n) == ps;
        forall k1, k2 | 0 <= k1 < k2 < |ps|
          ensures ps[k1] < ps[k2]
        {
          assert ps[k1] == prev[k1] < n - 1;
          if k2 < |prev| {
            assert ps[k2] == prev[k2];
          }
        }
      }
    }
  }

  /** The contributions at positions `ps`, concatenated in the order of `ps`. */
  function Records(b: Bucket, listing: seq<DirEntry>, ps: seq<nat>, c: Codecs): string
    requires forall k | 0 <= k < |ps| :: ps[k] < |listing|
  {
    if |ps| == 0 then ""
    else Records(b, listing, ps[..|ps| - 1], c) + Contribution(b, listing, ps[|ps| - 1], c).GetOr("")
  }

  /**
   * Completeness and order: what the builder writes is exactly one record
   * per package of the listing, in listing order; other entries add nothing.
   */
  lemma {:induction false} WrittenIsRecords(b: Bucket, listing: seq<DirEntry>, n: nat, c: Codecs)
    requires n <= |listing|
    ensures Written(b, listing, n, c) == Records(b, listing, DebPositions(listing, n), c)
    decreases n
  {
    if n > 0 {
      var piece := Contribution(b, listing, n - 1, c).GetOr("");
      var before := Written(b, listing, n - 1, c);
      assert Written(b, listing, n, c) == before + piece;
      WrittenIsRecords(b, listing, n - 1, c);
      if IsDebName(listing[n - 1].name) {
        RecordsStepPackage(b, listing, n, c);
      } else {
        RecordsStepOther(b, listing, n, c);
      }
    }
  }

  /** A package position adds its record. */
  lemma RecordsStepPackage(b: Bucket, listing: seq<DirEntry>, n: nat, c: Codecs)
    requires 0 < n <= |listing| && IsDebName(listing[n - 1].name)
    ensures Records(b, listing, DebPositions(listing, n), c)
         == Records(b, listing, DebPositions(listing, n - 1), c) + Contribution(b, listing, n - 1, c).GetOr("")
  {
    var ps := DebPositions(listing, n - 1);
    var ps' := ps + [n - 1];
    assert DebPositions(listing, n) == ps';
    assert ps'[..|ps'| - 1] == ps && ps'[|ps'| - 1] == n - 1;
    assert Records(b, listing, ps', c) == Records(b, listing, ps, c) + Contribution(b, listing, n - 1, c).GetOr("");
  }

  /** Any other position adds nothing. */
  lemma RecordsStepOther(b: Bucket, listing: seq<DirEntry>, n: nat, c: Codecs)
    requires 0 < n <= |listing| && !IsDebName(listing[n - 1].name)
    ensures Records(b, listing, DebPositions(listing, n), c)
         == Records(b, listing, DebPositions(listing, n - 1), c) + Contribution(b, listing, n - 1, c).GetOr("")
  {
    assert DebPositions(listing, n) == DebPositions(listing, n - 1);
    assert Contribution(b, listing, n - 1, c) == Success("");
  }

  /** Bucket components and file name hold no line break. */
  predicate SingleLine(b: Bucket, name: string) {
    '\n' !in b.distro && '\n' !in b.section && '\n' !in b.arch && '\n' !in name
  }

  /** Each field line is one line. */
  lemma FieldLinesAreLines(b: Bucket, e: DirEntry, data: string, h: Hashes)
    requires SingleLine(b, e.name) && HexHashes(h)
    ensures forall i | 0 <= i < 5 :: '\n' !in FieldLines(b, e, data, h)[i]
  {
    PathJoinFree(["dists", b.distro, b.section, "binary-" + b.arch, e.name], '\n');
    HexLacks(h.md5(data), 16, '\n');
    HexLacks(h.sha1(data), 20, '\n');
    HexLacks(h.sha256(data), 32, '\n');
  }

  /**
   * Stanza layout: the lines of a stanza are the control text's lines, then
   * exactly `Filename`, `Size`, `MD5sum`, `SHA1`, `SHA256`, each ended by a
   * newline.
   */
  lemma StanzaLines(control: string, b: Bucket, e: DirEntry, data: string, h: Hashes)
    requires control == "" || EndsInOneNewline(control)
    requires SingleLine(b, e.name) && HexHashes(h)
    ensures var cl := Lines(control);
      Lines(Stanza(control, b, e, data, h)) == cl[..|cl| - 1] + FieldLines(b, e, data, h) + [""]
  {
    var f := FieldLines(b, e, data, h);
    FieldLinesAreLines(b, e, data, h);
    TerminateLines(f);
    StanzaIsControlThenFields(control, b, e, data, h);
    ControlThenLines(control, Terminate(f), f + [""]);
  }

  lemma StanzaIsControlThenFields(control: string, b: Bucket, e: DirEntry, data: string, h: Hashes)
    ensures Stanza(control, b, e, data, h) == control + Terminate(FieldLines(b, e, data, h))
  {
    var f := FieldLines(b, e, data, h);
    var n0, n1, n2, n3, n4 := FilenameField(b, e.name), NatToString(e.size), h.md5(data), h.sha1(data), h.sha256(data);
    FiveFieldsAssoc(control, n0, n1, n2, n3, n4);
    TerminateFive(f);
    FiveLinesAssoc(control, f[0], f[1], f[2], f[3], f[4]);
  }

  lemma FiveFieldsAssoc(c: string, n0: string, n1: string, n2: string, n3: string, n4: string)
    ensures c + "Filename: " + n0 + "\n" + "Size: " + n1 + "\n" + "MD5sum: " + n2 + "\n"
              + "SHA1: " + n3 + "\n" + "SHA256: " + n4 + "\n"
         == c + ("Filename: " + n0) + "\n" + ("Size: " + n1) + "\n" + ("MD5sum: " + n2) + "\n"
              + ("SHA1: " + n3) + "\n" + ("SHA256: " + n4) + "\n"
  {
  }

  lemma TerminateFive(f: seq<string>)
    requires |f| == 5
    ensures Terminate(f) == f[0] + "\n" + (f[1] + "\n" + (f[2] + "\n" + (f[3] + "\n" + (f[4] + "\n"))))
  {
    assert Terminate(f[5..]) == "";
    assert Terminate(f[4..]) == f[4] + "\n" + Terminate(f[5..]);
    assert Terminate(f[3..]) == f[3] + "\n" + Terminate(f[4..]);
    assert Terminate(f[2..]) == f[2] + "\n" + Terminate(f[3..]);
    assert Terminate(f[1..]) == f[1] + "\n" + Terminate(f[2..]);
    assert Terminate(f) == f[0] + "\n" + Terminate(f[1..]);
  }

  lemma FiveLinesAssoc(c: string, l0: string, l1: string, l2: string, l3: string, l4: string)
    ensures c + l0 + "\n" + l1 + "\n" + l2 + "\n" + l3 + "\n" + l4 + "\n"
         == c + (l0 + "\n" + (l1 + "\n" + (l2 + "\n" + (l3 + "\n" + (l4 + "\n")))))
  {
  }

  /** Text that is empty or ends in a newline, followed by lines. */
  lemma ControlThenLines(control: string, t: string, tl: seq<string>)
    requires control == "" || EndsInOneNewline(control)
    requires Lines(t) == tl
    ensures var cl := Lines(control); Lines(control + t) == cl[..|cl| - 1] + tl
  {
    if control == "" {
      EmptyThenLines(t);
    } else {
      NewlineThenLines(control, t);
    }
  }

  /** Empty text is one empty line, and adds nothing before other lines. */
  lemma EmptyThenLines(t: string)
    ensures Lines("") == [""]
    ensures Lines("" + t) == Lines(t)
  {
    SplitFree("", '\n');
    assert "" + t == t;
  }

  /** Text ending in a newline contributes its lines but the empty one after that newline. */
  lemma NewlineThenLines(control: string, t: string)
    requires |control| >= 1 && control[|control| - 1] == '\n'
    ensures var cl := Lines(control); |cl| >= 1 && Lines(control + t) == cl[..|cl| - 1] + Lines(t)
  {
    var body := control[..|control| - 1];
    assert body + "\n" + "" == control;
    assert body + "\n" + t == control + t;
    LinesAfterNewline(body, "");
    EmptyThenLines(t);
    LinesAfterNewline(body, t);
  }

  /** A newline separates the lines before it from the lines after it. */
  lemma LinesAfterNewline(a: string, b: string)
    ensures Lines(a + "\n" + b) == Lines(a) + Lines(b)
  {
    assert a + "\n" + b == a + ['\n'] + b;
    SplitAppend(a, b, '\n');
  }

  /** A stanza never ends in a blank line: its last line is the SHA256 digest. */
  lemma StanzaEnd(control: string, b: Bucket, e: DirEntry, data: string, h: Hashes)
    requires HexHashes(h)
    ensures EndsWith(Stanza(control, b, e, data, h), "\n")
    ensures !EndsWith(Stanza(control, b, e, data, h), "\n\n")
  {
    var d := h.sha256(data);
    assert IsHexOf(d, 32);
    var s := Stanza(control, b, e, data, h);
    var pre := control + "Filename: " + FilenameField(b, e.name) + "\n"
      + "Size: " + NatToString(e.size) + "\n"
      + "MD5sum: " + h.md5(data) + "\n"
      + "SHA1: " + h.sha1(data) + "\n"
      + "SHA256: ";
    assert s == (pre + d) + "\n";
    assert s[|s| - 2] == d[|d| - 1];
    assert s[|s| - 2..] != "\n\n" by {
      assert s[|s| - 2..][0] == d[|d| - 1];
    }
  }

  /**
   * The separator rule of packages.go:199-201: a package's record ends in a
   * blank line exactly when its position is not the last position of the
   * whole listing; before that comes its stanza.
   */
  lemma SeparatorRule(b: Bucket, listing: seq<DirEntry>, j: nat, c: Codecs)
    requires j < |listing| && IsDebName(listing[j].name)
    requires Contribution(b, listing, j, c).Success? && HexHashes(c.hashes)
    ensures var r := Contribution(b, listing, j, c).value;
      && (EndsWith(r, "\n\n") <==> j != |listing| - 1)
      && |r| >= 2
      && Stanza(InspectPackage(listing[j].content, c.dec).value, b, listing[j], listing[j].hashed.value, c.hashes) <= r
  {
    var e := listing[j];
    var control := InspectPackage(e.content, c.dec).value;
    var s := Stanza(control, b, e, e.hashed.value, c.hashes);
    StanzaEnd(control, b, e, e.hashed.value, c.hashes);
    if j != |listing| - 1 {
      var r := s + "\n\n";
      assert r[|r| - 2..] == "\n\n";
    }
  }

  /** The packages of a listing, in listing order. */
  function PackagesOf(listing: seq<DirEntry>): (debs: seq<DirEntry>)
    ensures forall k | 0 <= k < |debs| :: IsDebName(debs[k].name)
    ensures |debs| == |DebPositions(listing, |listing|)|
  {
    var ps := DebPositions(listing, |listing|);
    DebPositionsSound(listing, |listing|);
    var debs := seq(|ps|, k requires 0 <= k < |ps| => listing[ps[k]]);
    assert forall k | 0 <= k < |ps| :: debs[k] == listing[ps[k]];
    debs
  }

  /**
   * The index with a separator only between stanzas, never after the
   * last one. It is the as-written builder run on
   * the listing with the non-packages removed.
   */
  function CorrectedIndex(b: Bucket, listing: seq<DirEntry>, c: Codecs): string {
    var debs := PackagesOf(listing);
    Written(b, debs, |debs|, c)
  }

  /** The corrected index never ends in a blank line once every package was inspected. */
  lemma CorrectedIndexEnd(b: Bucket, listing: seq<DirEntry>, c: Codecs)
    requires HexHashes(c.hashes)
    requires |PackagesOf(listing)| > 0 && OkBefore(b, PackagesOf(listing), |PackagesOf(listing)|, c)
    ensures !EndsWith(CorrectedIndex(b, listing, c), "\n\n")
  {
    var debs := PackagesOf(listing);
    LastRecordHasNoSeparator(b, debs, c);
  }

  /** When the last entry is a package whose record succeeded, the output does not end in a blank line. */
  lemma LastRecordHasNoSeparator(b: Bucket, listing: seq<DirEntry>, c: Codecs)
    requires |listing| > 0 && IsDebName(listing[|listing| - 1].name) && HexHashes(c.hashes)
    requires Contribution(b, listing, |listing| - 1, c).Success?
    ensures !EndsWith(Written(b, listing, |listing|, c), "\n\n")
  {
    var n := |listing|;
    SeparatorRule(b, listing, n - 1, c);
    var r := Contribution(b, listing, n - 1, c).value;
    var before := Written(b, listing, n - 1, c);
    assert Written(b, listing, n, c) == before + r;
    EndsWithConcat(before, r, "\n\n");
  }

  /** Entries in `[m, n)` that are not packages add nothing. */
  lemma {:induction false} NoPackagesAddNothing(b: Bucket, listing: seq<DirEntry>, m: nat, n: nat, c: Codecs)
    requires m <= n <= |listing|
    requires forall j | m <= j < n :: !IsDebName(listing[j].name)
    ensures Written(b, listing, n, c) == Written(b, listing, m, c)
    decreases n - m
  {
    if m < n {
      NoPackagesAddNothing(b, listing, m, n - 1, c);
      WrittenSkips(b, listing, n, c);
    }
  }

  /** A position that is not a package adds nothing to what was written. */
  lemma WrittenSkips(b: Bucket, listing: seq<DirEntry>, n: nat, c: Codecs)
    requires 0 < n <= |listing| && !IsDebName(listing[n - 1].name)
    ensures Written(b, listing, n, c) == Written(b, listing, n - 1, c)
  {
    var before := Written(b, listing, n - 1, c);
    assert Contribution(b, listing, n - 1, c) == Success("");
    assert before + "" == before;
  }

  /**
   * The source as written: when the listing's last entry is not a package
   * (for instance `Packages.gz`, which the builder itself creates before
   * listing), the last package's record still gets a separator, so the
   * index ends in a blank line. The corrected index does not.
   */
  lemma TrailingSeparator(b: Bucket, listing: seq<DirEntry>, c: Codecs, j: nat)
    requires HexHashes(c.hashes)
    requires j < |listing| - 1 && IsDebName(listing[j].name)
    requires forall i | j < i < |listing| :: !IsDebName(listing[i].name)
    requires OkBefore(b, listing, |listing|, c)
    ensures EndsWith(Written(b, listing, |listing|, c), "\n\n")
  {
    SeparatorRule(b, listing, j, c);
    NoPackagesAddNothing(b, listing, j + 1, |listing|, c);
    var r := Contribution(b, listing, j, c).value;
    var w := Written(b, listing, j + 1, c);
    assert w == Written(b, listing, j, c) + r;
    assert w[|w| - 2..] == r[|r| - 2..];
  }

  /**
   * A concrete listing that shows it: one package whose name sorts before
   * `Packages` (a leading digit does), then the two index files.
   */
  lemma TrailingSeparatorExample(b: Bucket, c: Codecs, deb: string)
    requires HexHashes(c.hashes)
    requires InspectPackage(Some(deb), c.dec).Success?
    ensures var listing := ExampleListing(deb);
      && EndsWith(Written(b, listing, 3, c), "\n\n")
      && !EndsWith(CorrectedIndex(b, listing, c), "\n\n")
  {
    var listing := ExampleListing(deb);
    ExampleListingPackages(deb);
    TrailingSeparator(b, listing, c, 0);
    var debs := PackagesOf(listing);
    assert Contribution(b, debs, 0, c).Success?;
    LastRecordHasNoSeparator(b, debs, c);
  }

  /**
   * The listing `ioutil.ReadDir` returns for a bucket holding one package
   * named `0ad_0.0.26_amd64.deb` after both index files were created; the
   * gzip writer has written nothing yet, so both are empty.
   */
  function ExampleListing(deb: string): seq<DirEntry> {
    [DirEntry("0ad_0.0.26_amd64.deb", |deb|, Some(deb), Some(deb)),
     DirEntry("Packages", 0, Some(""), Some("")),
     DirEntry("Packages.gz", 0, Some(""), Some(""))]
  }

  /** Only the first entry of the example listing is a package. */
  lemma ExampleListingPackages(deb: string)
    ensures var listing := ExampleListing(deb);
      && IsDebName(listing[0].name) && !IsDebName(listing[1].name) && !IsDebName(listing[2].name)
      && PackagesOf(listing) == [listing[0]]
  {
    var listing := ExampleListing(deb);
    assert IsDebName(listing[0].name);
    assert !IsDebName(listing[1].name);
    assert !IsDebName(listing[2].name);
    assert DebPositions(listing, 1) == [0];
    assert DebPositions(listing, 2) == [0];
    assert DebPositions(listing, 3) == [0];
  }
}

=== FILE: paths.dfy ===
/**
 * Repository layout helpers from main.go: the configuration record, the
 * bucket directory `conf.ArchPath` and its partial inverse `destructPath`,
 * which the file watcher uses to find the bucket a changed file belongs to.
 */
module RepoPaths {
  import opened Wrappers
  import opened Text

  /** The parts of the JSON configuration the core reads. */
  datatype Config = Config(
    root: string,
    archs: seq<string>,
    sections: seq<string>,
    distros: seq<string>,
    keysEnabled: bool)

  /** One (distribution, section, architecture) package directory. */
  datatype Bucket = Bucket(distro: string, section: string, arch: string)

  /** `conf.ArchPath`: `<root>/dists/<distro>/<section>/binary-<arch>`. */
  function ArchPath(cfg: Config, distro: string, section: string, arch: string): string {
    PathJoin([cfg.root, "dists", distro, section, "binary-" + arch])
  }

  /**
   * `destructPath`: the distribution, section and architecture read off the
   * last four `/`-separated components of a file path. Go indexes the split
   * slices without checking; every index that would panic yields `None`.
   */
  function DestructPath(path: string): (r: Option<Bucket>)
    ensures r.Some? ==> '/' !in r.value.distro && '/' !in r.value.section
    ensures r.Some? ==> '/' !in r.value.arch && '-' !in r.value.arch
    ensures r.Some? <==> |Split(path, '/')| >= 4 && '-' in Split(path, '/')[|Split(path, '/')| - 2]
  {
    var parts := Split(path, '/');
    var n := |parts|;
    if n < 4 then None
    else
      SplitSpec(path, '/');
      var archSplit := Split(parts[n - 2], '-');
      SplitSpec(parts[n - 2], '-');
      if |archSplit| < 2 then
        assert JoinWith(archSplit, "-") == archSplit[0];
        None
      else
        assert '/' !in archSplit[1] by {
          assert JoinWith(archSplit, "-") == archSplit[0] + "-" + JoinWith(archSplit[1..], "-");
          JoinHasPart(archSplit[1..], "-");
        }
        assert '-' in parts[n - 2] by {
          assert JoinWith(archSplit, "-") == archSplit[0] + "-" + JoinWith(archSplit[1..], "-");
          assert parts[n - 2][|archSplit[0]|] == '-';
        }
        Some(Bucket(parts[n - 4], parts[n - 3], archSplit[1]))
  }

  /** A bucket directory is never the empty path: it always holds `dists`. */
  lemma ArchPathNonEmpty(cfg: Config, d: string, s: string, a: string)
    ensures ArchPath(cfg, d, s, a) != ""
  {
    var elems := [cfg.root, "dists", d, s, "binary-" + a];
    assert elems[1] != "";
    NonEmptySpec(elems);
    var r := NonEmpty(elems);
    assert elems[1] in r;
    JoinHasPart(r, "/");
  }

  /** The first piece of a join is a prefix of it, so its characters occur in the join. */
  lemma JoinHasPart(parts: seq<string>, sep: string)
    requires |parts| >= 1
    ensures parts[0] <= JoinWith(parts, sep)
  {
  }

  /**
   * A single path element that `filepath.Join`'s cleaning leaves alone:
   * non-empty, without `/`, and neither `.` nor `..`.
   */
  predicate IsElement(x: string) {
    x != "" && '/' !in x && x != "." && x != ".."
  }

  /** What `filepath.Join` puts before `dists`: the root and a separator, or nothing for an empty root. */
  function RootPrefix(root: string): string {
    if root == "" then "" else root + "/"
  }

  /** With element-shaped distribution and section, the bucket directory is `<root>/dists/d/s/binary-a`. */
  lemma ArchPathShape(cfg: Config, d: string, s: string, a: string)
    requires IsElement(d) && IsElement(s)
    ensures ArchPath(cfg, d, s, a) == RootPrefix(cfg.root) + "dists" + "/" + (d + "/" + (s + "/" + ("binary-" + a)))
  {
    var b := "binary-" + a;
    assert ArchPath(cfg, d, s, a) == PathJoin([cfg.root, "dists", d, s, b]);
    JoinUnderRoot(cfg.root, d, s, b);
  }

  lemma JoinUnderRoot(root: string, d: string, s: string, b: string)
    requires IsElement(d) && IsElement(s) && b != ""
    ensures PathJoin([root, "dists", d, s, b]) == RootPrefix(root) + "dists" + "/" + (d + "/" + (s + "/" + b))
  {
    TailKept(d, s, b);
    TailJoined(d, s, b);
    if root == "" {
      JoinUnderEmptyRoot(d, s, b);
    } else {
      JoinUnderNamedRoot(root, d, s, b);
    }
  }

  /** An empty root is dropped by the join. */
  lemma JoinUnderEmptyRoot(d: string, s: string, b: string)
    requires NonEmpty(["dists", d, s, b]) == ["dists", d, s, b]
    ensures PathJoin(["", "dists", d, s, b]) == JoinWith(["dists", d, s, b], "/")
  {
    var tail := ["dists", d, s, b];
    assert ["", "dists", d, s, b][1..] == tail;
  }

  /** A non-empty root comes first, followed by a separator. */
  lemma JoinUnderNamedRoot(root: string, d: string, s: string, b: string)
    requires root != "" && NonEmpty(["dists", d, s, b]) == ["dists", d, s, b]
    ensures PathJoin([root, "dists", d, s, b]) == root + "/" + JoinWith(["dists", d, s, b], "/")
  {
    var tail := ["dists", d, s, b];
    var elems := [root, "dists", d, s, b];
    assert elems[1..] == tail;
    assert NonEmpty(elems) == [root] + tail;
    assert ([root] + tail)[1..] == tail;
  }

  lemma TailKept(d: string, s: string, b: string)
    requires d != "" && s != "" && b != ""
    ensures NonEmpty(["dists", d, s, b]) == ["dists", d, s, b]
  {
    var tail := ["dists", d, s, b];
    assert NonEmpty(tail[3..]) == tail[3..];
    assert NonEmpty(tail[2..]) == [s] + tail[3..];
    assert NonEmpty(tail[1..]) == [d] + tail[2..];
  }

  lemma TailJoined(d: string, s: string, b: string)
    ensures JoinWith(["dists", d, s, b], "/") == "dists" + "/" + (d + "/" + (s + "/" + b))
  {
    var tail := ["dists", d, s, b];
    assert JoinWith(tail[3..], "/") == b;
    assert JoinWith(tail[2..], "/") == s + "/" + b;
    assert JoinWith(tail[1..], "/") == d + "/" + (s + "/" + b);
  }

  /**
   * Round trip: the bucket read back from a file inside `ArchPath(d, s, a)`
   * is `(d, s, a)`, for element-shaped names and an architecture without `-`.
   */
  lemma DestructArchPath(cfg: Config, d: string, s: string, a: string, f: string)
    requires IsElement(d) && IsElement(s) && IsElement(f) && '/' !in a && '-' !in a
    ensures DestructPath(ArchPath(cfg, d, s, a) + "/" + f) == Some(Bucket(d, s, a))
  {
    var parts := SplitArchFile(cfg, d, s, a, f);
    ArchDirSplit(a);
    BucketFromParts(parts, d, s, a, f, a);
  }

  /**
   * An architecture holding `-` does not survive: only the text up to its
   * first `-` comes back.
   */
  lemma DestructTruncatesArch(cfg: Config, d: string, s: string, a1: string, a2: string, f: string)
    requires IsElement(d) && IsElement(s) && IsElement(f)
    requires '/' !in a1 && '/' !in a2 && '-' !in a1
    ensures DestructPath(ArchPath(cfg, d, s, a1 + "-" + a2) + "/" + f) == Some(Bucket(d, s, a1))
  {
    var a := a1 + "-" + a2;
    var parts := SplitArchFile(cfg, d, s, a, f);
    ArchDirSplitDash(a1, a2);
    BucketFromParts(parts, d, s, a, f, a1);
  }

  /** The bucket directory name splits at `-` into `binary` and the architecture. */
  lemma ArchDirSplit(a: string)
    requires '-' !in a
    ensures Split("binary-" + a, '-') == ["binary", a]
  {
    BinaryPrefix(a);
    SplitAppend("binary", a, '-');
    SplitFree(a, '-');
  }

  /** With a `-` inside the architecture, the second piece is the text before it. */
  lemma ArchDirSplitDash(a1: string, a2: string)
    requires '-' !in a1
    ensures var p := Split("binary-" + (a1 + "-" + a2), '-'); |p| >= 2 && p[1] == a1
  {
    var a := a1 + "-" + a2;
    BinaryPrefix(a);
    SplitAppend("binary", a, '-');
    SplitAppend(a1, a2, '-');
  }

  /** `binary` is a single `-`-free piece. */
  lemma BinaryPrefix(a: string)
    ensures "binary-" + a == "binary" + "-" + a
    ensures Split("binary", '-') == ["binary"]
  {
    SplitFree("binary", '-');
  }

  /** `destructPath` on a split whose last four parts are known. */
  lemma BucketFromParts(parts: seq<string>, d: string, s: string, a: string, f: string, a1: string)
    requires |parts| >= 5 && parts[|parts| - 4..] == [d, s, "binary-" + a, f]
    requires var p := Split("binary-" + a, '-'); |p| >= 2 && p[1] == a1
    ensures forall path | Split(path, '/') == parts :: DestructPath(path) == Some(Bucket(d, s, a1))
  {
    var n := |parts|;
    assert parts[n - 4] == d && parts[n - 3] == s && parts[n - 2] == "binary-" + a;
    assert '-' in parts[n - 2] by {
      assert ("binary-" + a)[6] == '-';
    }
  }

  /** The last four components of a file inside a bucket directory. */
  lemma SplitArchFile(cfg: Config, d: string, s: string, a: string, f: string) returns (parts: seq<string>)
    requires IsElement(d) && IsElement(s) && IsElement(f) && '/' !in a
    ensures parts == Split(ArchPath(cfg, d, s, a) + "/" + f, '/')
    ensures |parts| >= 5
    ensures parts[|parts| - 4..] == [d, s, "binary-" + a, f]
  {
    var pre := RootPrefix(cfg.root) + "dists";
    var b := "binary-" + a;
    var t3 := d + "/" + (s + "/" + (b + "/" + f));
    var path := ArchPath(cfg, d, s, a) + "/" + f;
    assert path == pre + "/" + t3 by {
      ArchPathShape(cfg, d, s, a);
      SlashAssoc(pre, d, s, b, f);
    }
    BucketTailSplit(d, s, a, f);
    parts := Split(path, '/');
    assert pre + "/" + t3 == pre + ['/'] + t3;
    SplitAppend(pre, t3, '/');
    var n := |parts|;
    assert parts == Split(pre, '/') + [d, s, b, f];
    assert parts[n - 4..] == [d, s, b, f];
  }

  /** The components below `dists` split back into distribution, section, bucket directory and file. */
  lemma BucketTailSplit(d: string, s: string, a: string, f: string)
    requires IsElement(d) && IsElement(s) && IsElement(f) && '/' !in a
    ensures Split(d + "/" + (s + "/" + (("binary-" + a) + "/" + f)), '/') == [d, s, "binary-" + a, f]
  {
    BinaryDirIsElement(a);
    SplitFour(d, s, "binary-" + a, f, '/');
  }

  lemma SlashAssoc(p: string, d: string, s: string, b: string, f: string)
    ensures p + "/" + (d + "/" + (s + "/" + b)) + "/" + f == p + "/" + (d + "/" + (s + "/" + (b + "/" + f)))
  {
  }

  /** `binary-<arch>` is one path element when the architecture is. */
  lemma BinaryDirIsElement(a: string)
    requires '/' !in a
    ensures '/' !in "binary-" + a
  {
    assert '/' !in "binary-";
  }
}

=== FILE: release.dfy ===
/**
 * The `Release` builder of signing.go (`createRelease`): a five-line header,
 * then the MD5, SHA1 and SHA256 sections listing every `Packages` and
 * `Packages.gz` file found by walking `dists/<distro>`, then the hand-off to
 * the signer, which writes `Release.gpg` and `InRelease`.
 *
 * The walk, the file reads and the clock are inputs: the walk is the
 * sequence of visited paths in walk order, each with its size and the bytes
 * reading it yields, and the date arrives already formatted. The OpenPGP
 * signer is opaque: two functions from the Release text to the detached
 * and the clear-signed output, plus the points where it can fail.
 */
module ReleaseFile {
  import opened Wrappers
  import opened Text
  import opened Digests
  import opened RepoPaths

  /**
   * One path `filepath.Walk` visits under `dists/<distro>`: its path relative
   * to that directory (`.` for the directory itself), the size the walk
   * reports, and the bytes a read of it yields (`None` when opening or
   * reading it fails, as for a directory).
   */
  datatype WalkItem = WalkItem(rel: string, size: nat, content: Option<string>)

  /** The visited paths in walk order; `failsAfter` when the walk reports an error. */
  datatype Walk = Walk(items: seq<WalkItem>, failsAfter: bool)

  /** The OpenPGP step and the points where it can fail. */
  datatype Signer = Signer(
    releaseOpens: bool,
    gpgCreatable: bool,
    detachSign: string -> Option<string>,
    inReleaseCreatable: bool,
    clearsignReady: bool,
    clearsign: string -> string)

  /**
   * What one run leaves in a signature file: not created, created but
   * holding no complete signature (a failed detached signing may already
   * have written its armor header), or holding a whole signature.
   */
  datatype FileState = Untouched | Truncated | Written(text: string)

  datatype SignRun = SignRun(gpg: FileState, inRelease: FileState, ok: bool)

  datatype ReleaseError = CreateFailed | ScanFailed | SignFailed

  /**
   * A run of `createRelease`: the text written to `Release` (`None` when it
   * could not be created), the signing run if the signer was reached, and
   * the error returned.
   */
  datatype ReleaseRun = ReleaseRun(release: Option<string>, signing: Option<SignRun>, err: Option<ReleaseError>)

  /** `dists/<distro>` under the repository root. */
  function WorkingDirectory(cfg: Config, distro: string): string {
    PathJoin([cfg.root, "dists", distro])
  }

  /** The path the walk hands its callback for an item. */
  function FullPath(wd: string, rel: string): string {
    if rel == "." then wd else wd + "/" + rel
  }

  /** The walk callback's filter: the path ends in `Packages.gz` or `Packages`. */
  predicate IsIndexPath(path: string) {
    EndsWith(path, "Packages.gz") || EndsWith(path, "Packages")
  }

  /** The five header lines, without their newlines. */
  function HeaderLines(distro: string, sections: seq<string>, archs: seq<string>, date: string): seq<string> {
    [ "Suite: " + distro,
      "Codename: " + distro,
      "Components: " + JoinWith(sections, " "),
      "Architectures: " + JoinWith(archs, " "),
      "Date: " + date ]
  }

  /** The header as written, each line ended by a newline. */
  function Header(distro: string, sections: seq<string>, archs: seq<string>, date: string): string {
    Terminate(HeaderLines(distro, sections, archs, date))
  }

  /** One digest line without its newline: ` <hex> <size> <relpath>`. */
  function SumText(hex: string, size: nat, rel: string): string {
    " " + hex + " " + NatToString(size) + " " + rel
  }

  /** The walked items the filter keeps, in walk order. */
  function Selected(wd: string, items: seq<WalkItem>, keep: string -> bool): seq<WalkItem> {
    SelectedBefore(wd, items, |items|, keep)
  }

  /** The items among the first `n` visited that the filter keeps, in walk order. */
  function SelectedBefore(wd: string, items: seq<WalkItem>, n: nat, keep: string -> bool): seq<WalkItem>
    requires n <= |items|
  {
    if n == 0 then []
    else if keep(FullPath(wd, items[n - 1].rel)) then SelectedBefore(wd, items, n - 1, keep) + [items[n - 1]]
    else SelectedBefore(wd, items, n - 1, keep)
  }

  /** The lines of one digest section for the selected items, under `digest`. */
  function SumTexts(sel: seq<WalkItem>, digest: string -> string): (r: seq<string>)
    ensures |r| == |sel|
    ensures forall k | 0 <= k < |sel| ::
      r[k] == SumText(digest(sel[k].content.GetOr("")), sel[k].size, sel[k].rel)
  {
    seq(|sel|, k requires 0 <= k < |sel| => SumText(digest(sel[k].content.GetOr("")), sel[k].size, sel[k].rel))
  }

  /** The whole Release text once every section is written. */
  function ReleaseText(header: string, sel: seq<WalkItem>, h: Hashes): string {
    header
    + "MD5Sum:\n" + Section(sel, h.md5)
    + "SHA1:\n" + Section(sel, h.sha1)
    + "SHA256:\n" + Section(sel, h.sha256)
  }

  /** Every selected path could be read and the walk itself reported no error. */
  predicate WalkSucceeds(wd: string, walk: Walk, keep: string -> bool) {
    !walk.failsAfter && ReadableBefore(wd, walk.items, |walk.items|, keep)
  }

  /** Every selected path among the first `n` visited could be read. */
  predicate ReadableBefore(wd: string, items: seq<WalkItem>, n: nat, keep: string -> bool)
    requires n <= |items|
  {
    n == 0
    || (ReadableBefore(wd, items, n - 1, keep)
        && (keep(FullPath(wd, items[n - 1].rel)) ==> items[n - 1].content.Some?))
  }

  /**
   * `signRelease` as an opaque step: open `Release`, create `Release.gpg`
   * and write the detached signature, rewind, create `InRelease` and write
   * the clear-signed text. The first failure stops the run.
   */
  function SignRelease(content: string, s: Signer): (r: SignRun)
    ensures r.ok <==> r.gpg.Written? && r.inRelease.Written?
    ensures r.inRelease != Untouched ==> r.gpg.Written?
    ensures r.gpg.Written? ==> s.detachSign(content) == Some(r.gpg.text)
    ensures r.inRelease.Written? ==> r.inRelease.text == s.clearsign(content)
    ensures r.gpg != Untouched <==> s.releaseOpens && s.gpgCreatable
    ensures r.gpg.Written? <==> s.releaseOpens && s.gpgCreatable && s.detachSign(content).Some?
    ensures r.inRelease != Untouched <==> r.gpg.Written? && s.inReleaseCreatable
    ensures r.ok <==> s.releaseOpens && s.gpgCreatable && s.detachSign(content).Some?
                      && s.inReleaseCreatable && s.clearsignReady
  {
    if !s.releaseOpens || !s.gpgCreatable then SignRun(Untouched, Untouched, false)
    else match s.detachSign(content)
      case None => SignRun(Truncated, Untouched, false)
      case Some(sig) =>
        if !s.inReleaseCreatable then SignRun(Written(sig), Untouched, false)
        else if !s.clearsignReady then SignRun(Written(sig), Truncated, false)
        else SignRun(Written(sig), Written(s.clearsign(content)), true)
  }

  /** One item's digest line under `digest`, without its newline. */
  function ItemLine(item: WalkItem, digest: string -> string): string {
    SumText(digest(item.content.GetOr("")), item.size, item.rel)
  }

  /** The section under `digest`: one terminated line per selected item. */
  function Section(sel: seq<WalkItem>, digest: string -> string): string {
    Terminate(SumTexts(sel, digest))
  }

  /**
   * The walk callback of signing.go:49-86 over every visited path: the
   * three sections, or `None` once a selected path cannot be read or the
   * walk reports an error.
   */
  method ScanWalk(wd: string, walk: Walk, keep: string -> bool, h: Hashes) returns (sums: Option<(string, string, string)>)
    ensures sums.None? <==> !WalkSucceeds(wd, walk, keep)
    ensures sums.Some? ==>
      var sel := Selected(wd, walk.items, keep);
      sums.value == (Section(sel, h.md5), Section(sel, h.sha1), Section(sel, h.sha256))
  {
    var md5s, sha1s, sha256s := "", "", "";
    var i := 0;
    while i < |walk.items|
      invariant 0 <= i <= |walk.items|
      invariant ReadableBefore(wd, walk.items, i, keep)
      invariant md5s == Collected(wd, walk.items, i, keep, h.md5)
      invariant sha1s == Collected(wd, walk.items, i, keep, h.sha1)
      invariant sha256s == Collected(wd, walk.items, i, keep, h.sha256)
    {
      var item := walk.items[i];
      if keep(FullPath(wd, item.rel)) {
        if item.content.None? {
          UnreadableStops(wd, walk.items, i + 1, |walk.items|, keep);
          return None;
        }
        md5s := md5s + ItemLine(item, h.md5) + "\n";
        sha1s := sha1s + ItemLine(item, h.sha1) + "\n";
        sha256s := sha256s + ItemLine(item, h.sha256) + "\n";
      }
      i := i + 1;
    }
    if walk.failsAfter {
      return None;
    }
    CollectedIsSection(wd, walk.items, i, keep, h.md5);
    CollectedIsSection(wd, walk.items, i, keep, h.sha1);
    CollectedIsSection(wd, walk.items, i, keep, h.sha256);
    sums := Some((md5s, sha1s, sha256s));
  }

  /** A digest buffer after the callback has seen the first `n` visited paths. */
  function Collected(wd: string, items: seq<WalkItem>, n: nat, keep: string -> bool, digest: string -> string): string
    requires n <= |items|
  {
    if n == 0 then ""
    else if keep(FullPath(wd, items[n - 1].rel)) then Collected(wd, items, n - 1, keep, digest) + ItemLine(items[n - 1], digest) + "\n"
    else Collected(wd, items, n - 1, keep, digest)
  }

  /** Appending line by line gives the section of the selected items. */
  lemma {:induction false} CollectedIsSection(wd: string, items: seq<WalkItem>, n: nat, keep: string -> bool, digest: string -> string)
    requires n <= |items|
    ensures Collected(wd, items, n, keep, digest) == Section(SelectedBefore(wd, items, n, keep), digest)
  {
    if n > 0 {
      CollectedIsSection(wd, items, n - 1, keep, digest);
      var item := items[n - 1];
      if keep(FullPath(wd, item.rel)) {
        SectionAppend(SelectedBefore(wd, items, n - 1, keep), item, digest);
      }
    }
  }

  /** One more selected item appends its line to a section. */
  lemma SectionAppend(sel: seq<WalkItem>, item: WalkItem, digest: string -> string)
    ensures Section(sel + [item], digest) == Section(sel, digest) + ItemLine(item, digest) + "\n"
  {
    var line := ItemLine(item, digest);
    assert SumTexts(sel + [item], digest) == SumTexts(sel, digest) + [line];
    TerminateAppend(SumTexts(sel, digest), [line]);
    assert Terminate([line]) == line + "\n" + Terminate([]);
  }

  /** Every selected path could be read exactly when no selected path among the visited ones fails to open. */
  lemma {:induction false} ReadableIff(wd: string, items: seq<WalkItem>, n: nat, keep: string -> bool)
    requires n <= |items|
    ensures ReadableBefore(wd, items, n, keep) <==>
      forall j | 0 <= j < n && keep(FullPath(wd, items[j].rel)) :: items[j].content.Some?
  {
    if n > 0 {
      ReadableIff(wd, items, n - 1, keep);
    }
  }

  /** Once a selected path cannot be read, no longer prefix is readable. */
  lemma {:induction false} UnreadableStops(wd: string, items: seq<WalkItem>, m: nat, n: nat, keep: string -> bool)
    requires m <= n <= |items| && !ReadableBefore(wd, items, m, keep)
    ensures !ReadableBefore(wd, items, n, keep)
    decreases n - m
  {
    if m < n {
      UnreadableStops(wd, items, m, n - 1, keep);
    }
  }

  /**
   * `createRelease` for `distro`: header first, then the digest lines
   * collected while walking, written only once the walk has finished
   * without error, and then the signing step.
   */
  method CreateRelease(cfg: Config, distro: string, date: string, releaseCreatable: bool,
                       walk: Walk, h: Hashes, signer: Signer) returns (run: ReleaseRun)
    ensures var wd := WorkingDirectory(cfg, distro);
      var header := Header(distro, cfg.sections, cfg.archs, date);
      && (!releaseCreatable ==> run == ReleaseRun(None, None, Some(CreateFailed)))
      && (releaseCreatable && !WalkSucceeds(wd, walk, IsIndexPath) ==> run == ReleaseRun(Some(header), None, Some(ScanFailed)))
      && (releaseCreatable && WalkSucceeds(wd, walk, IsIndexPath) ==>
            && run.release == Some(ReleaseText(header, Selected(wd, walk.items, IsIndexPath), h))
            && run.signing == Some(SignRelease(run.release.value, signer))
            && (run.err.None? <==> run.signing.value.ok)
            && (run.err.Some? ==> run.err == Some(SignFailed)))
  {
    var wd := WorkingDirectory(cfg, distro);
    if !releaseCreatable {
      return ReleaseRun(None, None, Some(CreateFailed));
    }
    var header := Header(distro, cfg.sections, cfg.archs, date);
    var sums := ScanWalk(wd, walk, IsIndexPath, h);
    if sums.None? {
      return ReleaseRun(Some(header), None, Some(ScanFailed));
    }
    var (md5s, sha1s, sha256s) := sums.value;
    var content := header + "MD5Sum:\n" + md5s + "SHA1:\n" + sha1s + "SHA256:\n" + sha256s;
    var signing := SignRelease(content, signer);
    run := ReleaseRun(Some(content), Some(signing), if signing.ok then None else Some(SignFailed));
  }

  /**
   * Below the working directory the filter looks only at the relative
   * path: neither suffix holds a `/`, so it cannot reach into `wd`.
   */
  lemma IndexPathOfRel(wd: string, rel: string)
    requires rel != "."
    ensures IsIndexPath(FullPath(wd, rel)) <==> IsIndexPath(rel)
  {
    assert wd + "/" + rel == wd + ['/'] + rel;
    EndsWithAfter(wd, '/', rel, "Packages.gz");
    EndsWithAfter(wd, '/', rel, "Packages");
  }

  /** Every selected item is a walked item the filter keeps. */
  lemma {:induction false} SelectedSound(wd: string, items: seq<WalkItem>, n: nat, keep: string -> bool)
    requires n <= |items|
    ensures forall k | 0 <= k < |SelectedBefore(wd, items, n, keep)| ::
      && SelectedBefore(wd, items, n, keep)[k] in items[..n]
      && keep(FullPath(wd, SelectedBefore(wd, items, n, keep)[k].rel))
  {
    if n > 0 {
      var r, ri, last := SelectedBefore(wd, items, n, keep), SelectedBefore(wd, items, n - 1, keep), items[n - 1];
      SelectedSound(wd, items, n - 1, keep);
      assert items[..n] == items[..n - 1] + [last];
      forall k | 0 <= k < |r|
        ensures r[k] in items[..n] && keep(FullPath(wd, r[k].rel))
      {
        if k < |ri| {
          assert r[k] == ri[k];
        } else {
          assert r[k] == last;
        }
      }
    }
  }

  /** Every walked item the filter keeps is selected. */
  lemma {:induction false} SelectedComplete(wd: string, items: seq<WalkItem>, n: nat, keep: string -> bool)
    requires n <= |items|
    ensures forall i | 0 <= i < n && keep(FullPath(wd, items[i].rel)) :: items[i] in SelectedBefore(wd, items, n, keep)
  {
    if n > 0 {
      var r, ri, last := SelectedBefore(wd, items, n, keep), SelectedBefore(wd, items, n - 1, keep), items[n - 1];
      SelectedComplete(wd, items, n - 1, keep);
      forall i | 0 <= i < n && keep(FullPath(wd, items[i].rel))
        ensures items[i] in r
      {
        if i < n - 1 {
          assert items[i] in ri;
        } else {
          assert r[|r| - 1] == last;
        }
      }
    }
  }

  /**
   * The file layout: the five header lines, then each section title
   * followed by one line per selected file, in walk order, and nothing
   * after the final newline.
   */
  lemma ReleaseLayout(distro: string, sections: seq<string>, archs: seq<string>, date: string,
                      sel: seq<WalkItem>, h: Hashes)
    requires '\n' !in distro && '\n' !in date
    requires forall k | 0 <= k < |sections| :: '\n' !in sections[k]
    requires forall k | 0 <= k < |archs| :: '\n' !in archs[k]
    requires forall k | 0 <= k < |sel| :: '\n' !in sel[k].rel
    requires HexHashes(h)
    ensures Lines(ReleaseText(Header(distro, sections, archs, date), sel, h))
         == HeaderLines(distro, sections, archs, date)
            + ["MD5Sum:"] + SumTexts(sel, h.md5)
            + ["SHA1:"] + SumTexts(sel, h.sha1)
            + ["SHA256:"] + SumTexts(sel, h.sha256)
            + [""]
  {
    var hl := HeaderLines(distro, sections, archs, date);
    var m, s1, s2 := SumTexts(sel, h.md5), SumTexts(sel, h.sha1), SumTexts(sel, h.sha256);
    var all := hl + ["MD5Sum:"] + m + ["SHA1:"] + s1 + ["SHA256:"] + s2;
    SectionsTerminated(hl, m, s1, s2);
    HeaderIsLines(distro, sections, archs, date);
    SumTextsAreLines(sel, h.md5, 16);
    SumTextsAreLines(sel, h.sha1, 20);
    SumTextsAreLines(sel, h.sha256, 32);
    forall k | 0 <= k < |all| ensures '\n' !in all[k] {
      if k < |hl| { assert all[k] == hl[k]; }
      else if k == |hl| { assert all[k] == "MD5Sum:"; }
      else if k < |hl| + 1 + |m| { assert all[k] == m[k - |hl| - 1]; }
      else if k == |hl| + 1 + |m| { assert all[k] == "SHA1:"; }
      else if k < |hl| + 2 + |m| + |s1| { assert all[k] == s1[k - |hl| - 2 - |m|]; }
      else if k == |hl| + 2 + |m| + |s1| { assert all[k] == "SHA256:"; }
      else { assert all[k] == s2[k - |hl| - 3 - |m| - |s1|]; }
    }
    TerminateLines(all);
  }

  /** Writing the header and the titled sections one after another terminates every line. */
  lemma SectionsTerminated(hl: seq<string>, m: seq<string>, s1: seq<string>, s2: seq<string>)
    ensures Terminate(hl) + "MD5Sum:\n" + Terminate(m) + "SHA1:\n" + Terminate(s1) + "SHA256:\n" + Terminate(s2)
         == Terminate(hl + ["MD5Sum:"] + m + ["SHA1:"] + s1 + ["SHA256:"] + s2)
  {
    var p1 := hl + ["MD5Sum:"];
    var p2 := p1 + m;
    var p3 := p2 + ["SHA1:"];
    var p4 := p3 + s1;
    var p5 := p4 + ["SHA256:"];
    var th, tm, t1, t2 := Terminate(hl), Terminate(m), Terminate(s1), Terminate(s2);
    assert Terminate(p1) == th + "MD5Sum:\n" by {
      TerminateAppend(hl, ["MD5Sum:"]);
      OneTerminated("MD5Sum:");
    }
    assert Terminate(p2) == th + "MD5Sum:\n" + tm by {
      TerminateAppend(p1, m);
    }
    assert Terminate(p3) == th + "MD5Sum:\n" + tm + "SHA1:\n" by {
      TerminateAppend(p2, ["SHA1:"]);
      OneTerminated("SHA1:");
    }
    assert Terminate(p4) == th + "MD5Sum:\n" + tm + "SHA1:\n" + t1 by {
      TerminateAppend(p3, s1);
    }
    assert Terminate(p5) == th + "MD5Sum:\n" + tm + "SHA1:\n" + t1 + "SHA256:\n" by {
      TerminateAppend(p4, ["SHA256:"]);
      OneTerminated("SHA256:");
    }
    TerminateAppend(p5, s2);
  }

  lemma OneTerminated(line: string)
    ensures Terminate([line]) == line + "\n"
  {
    assert Terminate([line]) == line + "\n" + Terminate([]);
  }

  lemma HeaderIsLines(distro: string, sections: seq<string>, archs: seq<string>, date: string)
    requires '\n' !in distro && '\n' !in date
    requires forall k | 0 <= k < |sections| :: '\n' !in sections[k]
    requires forall k | 0 <= k < |archs| :: '\n' !in archs[k]
    ensures forall k | 0 <= k < 5 :: '\n' !in HeaderLines(distro, sections, archs, date)[k]
  {
    JoinFree(sections, " ", '\n');
    JoinFree(archs, " ", '\n');
  }

  lemma SumTextsAreLines(sel: seq<WalkItem>, digest: string -> string, n: nat)
    requires forall s :: IsHexOf(digest(s), n)
    requires forall k | 0 <= k < |sel| :: '\n' !in sel[k].rel
    ensures forall k | 0 <= k < |sel| :: '\n' !in SumTexts(sel, digest)[k]
  {
    forall k | 0 <= k < |sel| ensures '\n' !in SumTexts(sel, digest)[k] {
      HexLacks(digest(sel[k].content.GetOr("")), n, '\n');
    }
  }

  /**
   * The columns of a digest line, split at spaces: an empty lead, the
   * digest, the size and the relative path, provided the path has no
   * space.
   */
  lemma SumColumns(hex: string, size: nat, rel: string)
    requires ' ' !in hex && ' ' !in rel
    ensures Split(SumText(hex, size, rel), ' ') == ["", hex, NatToString(size), rel]
  {
    var n := NatToString(size);
    var cols := ["", hex, n, rel];
    assert ' ' !in n;
    assert JoinWith(cols[3..], " ") == rel;
    assert JoinWith(cols[2..], " ") == n + " " + rel;
    assert JoinWith(cols[1..], " ") == hex + " " + (n + " " + rel);
    assert JoinWith(cols, " ") == "" + " " + (hex + " " + (n + " " + rel));
    SpacedAssoc(hex, n, rel);
    SplitJoin(cols, ' ');
  }

  lemma SpacedAssoc(a: string, b: string, c: string)
    ensures " " + a + " " + b + " " + c == "" + " " + (a + " " + (b + " " + c))
  {
  }

  /**
   * Line `k` of the three sections names the same file with the same size;
   * only the digest column differs.
   */
  lemma SectionsAgree(sel: seq<WalkItem>, h: Hashes, k: nat)
    requires HexHashes(h)
    requires k < |sel| && ' ' !in sel[k].rel
    ensures var data, size, rel := sel[k].content.GetOr(""), sel[k].size, sel[k].rel;
      && Split(SumTexts(sel, h.md5)[k], ' ') == ["", h.md5(data), NatToString(size), rel]
      && Split(SumTexts(sel, h.sha1)[k], ' ') == ["", h.sha1(data), NatToString(size), rel]
      && Split(SumTexts(sel, h.sha256)[k], ' ') == ["", h.sha256(data), NatToString(size), rel]
  {
    var data := sel[k].content.GetOr("");
    HexLacks(h.md5(data), 16, ' ');
    HexLacks(h.sha1(data), 20, ' ');
    HexLacks(h.sha256(data), 32, ' ');
    SumColumns(h.md5(data), sel[k].size, sel[k].rel);
    SumColumns(h.sha1(data), sel[k].size, sel[k].rel);
    SumColumns(h.sha256(data), sel[k].size, sel[k].rel);
  }
}

=== FILE: text.dfy ===
/**
 * The handful of Go string and path helpers the repository server relies on
 * (`strings.HasSuffix`, `strings.Contains`, `strings.TrimRight`,
 * `strings.Split`, `strings.Join`, `filepath.Join`, `filepath.Ext`,
 * decimal formatting with `%d`), stated over `string` = `seq<char>`.
 * File contents are byte strings in Go; they are modelled as `string` too.
 */
module Text {

  /** `strings.HasSuffix(s, suffix)`. */
  predicate EndsWith(s: string, suffix: string) {
    |suffix| <= |s| && s[|s| - |suffix|..] == suffix
  }

  /** A suffix no longer than `b` is decided by `b` alone. */
  lemma EndsWithConcat(a: string, b: string, suffix: string)
    requires |suffix| <= |b|
    ensures EndsWith(a + b, suffix) <==> EndsWith(b, suffix)
  {
    var s := a + b;
    assert s[|s| - |suffix|..] == b[|b| - |suffix|..];
  }

  /** A suffix free of `c` cannot reach back past a `c`. */
  lemma EndsWithAfter(a: string, c: char, b: string, suffix: string)
    requires c !in suffix
    ensures EndsWith(a + [c] + b, suffix) <==> EndsWith(b, suffix)
  {
    var s := a + [c] + b;
    if |suffix| <= |b| {
      assert s[|s| - |suffix|..] == b[|b| - |suffix|..];
    } else if |suffix| <= |s| {
      var k := |suffix| - |b| - 1;
      assert s[|s| - |suffix|..][k] == c;
    }
  }

  /** `sub` occurs in `s` starting at index `i`. */
  predicate OccursAt(s: string, sub: string, i: nat) {
    i + |sub| <= |s| && s[i..i + |sub|] == sub
  }

  /** `strings.Contains(s, sub)`. */
  predicate Contains(s: string, sub: string) {
    exists i: nat | i <= |s| :: OccursAt(s, sub, i)
  }

  /** A string cannot contain a pattern holding a character the string lacks. */
  lemma NotContainsMissingChar(s: string, sub: string, c: char)
    requires c in sub && c !in s
    ensures !Contains(s, sub)
  {
  }

  /** `strings.TrimRight(s, string(c))`: every trailing `c` is removed, nothing else. */
  function TrimRight(s: string, c: char): (r: string)
    ensures |r| <= |s| && r == s[..|r|]
    ensures |r| == 0 || r[|r| - 1] != c
    ensures forall i | |r| <= i < |s| :: s[i] == c
    decreases |s|
  {
    if |s| > 0 && s[|s| - 1] == c then TrimRight(s[..|s| - 1], c) else s
  }

  /** `strings.Join(parts, sep)`. */
  function JoinWith(parts: seq<string>, sep: string): string
    decreases |parts|
  {
    if |parts| == 0 then ""
    else if |parts| == 1 then parts[0]
    else parts[0] + sep + JoinWith(parts[1..], sep)
  }

  /** Joining two non-empty lists puts one separator between their joins. */
  lemma {:induction false} JoinAppend(p: seq<string>, q: seq<string>, sep: string)
    requires |p| >= 1 && |q| >= 1
    ensures JoinWith(p + q, sep) == JoinWith(p, sep) + sep + JoinWith(q, sep)
    decreases |p|
  {
    if |p| == 1 {
      assert (p + q)[1..] == q;
    } else {
      assert (p + q)[1..] == p[1..] + q;
      JoinAppend(p[1..], q, sep);
    }
  }

  /** Index of the first `c` in `s`, or `|s|` when there is none. */
  function IndexOf(s: string, c: char): (k: nat)
    ensures k <= |s|
    ensures k < |s| ==> s[k] == c
    ensures c !in s[..k]
    decreases |s|
  {
    if |s| == 0 then 0
    else if s[0] == c then 0
    else 1 + IndexOf(s[1..], c)
  }

  /** `strings.Split(s, string(c))`: the pieces between occurrences of `c`. */
  function Split(s: string, c: char): (parts: seq<string>)
    ensures |parts| >= 1
    decreases |s|
  {
    var k := IndexOf(s, c);
    if k == |s| then [s]
    else [s[..k]] + Split(s[k + 1..], c)
  }

  /** The pieces hold no separator, and joining them back gives the string. */
  lemma SplitSpec(s: string, c: char)
    ensures forall i | 0 <= i < |Split(s, c)| :: c !in Split(s, c)[i]
    ensures JoinWith(Split(s, c), [c]) == s
  {
    SplitPiecesFree(s, c);
    SplitJoins(s, c);
  }

  /** No piece holds the separator. */
  lemma {:induction false} SplitPiecesFree(s: string, c: char)
    ensures forall i | 0 <= i < |Split(s, c)| :: c !in Split(s, c)[i]
    decreases |s|
  {
    var k := IndexOf(s, c);
    if k == |s| {
      assert s[..k] == s;
    } else {
      SplitPiecesFree(s[k + 1..], c);
      var rest := Split(s[k + 1..], c);
      var parts := [s[..k]] + rest;
      assert Split(s, c) == parts;
      forall i | 0 <= i < |parts|
        ensures c !in parts[i]
      {
        if i > 0 {
          assert parts[i] == rest[i - 1];
        }
      }
    }
  }

  /** Joining the pieces with the separator gives the string back. */
  lemma {:induction false} SplitJoins(s: string, c: char)
    ensures JoinWith(Split(s, c), [c]) == s
    decreases |s|
  {
    var k := IndexOf(s, c);
    if k == |s| {
      assert s[..k] == s;
    } else {
      var a, b := s[..k], s[k + 1..];
      CutAt(s, k);
      SplitJoins(b, c);
      SplitJoinsStep(a, b, c);
    }
  }

  /** One step of `SplitJoins`: the first piece is everything before the first separator. */
  lemma SplitJoinsStep(a: string, b: string, c: char)
    requires c !in a
    requires JoinWith(Split(b, c), [c]) == b
    ensures JoinWith(Split(a + [c] + b, c), [c]) == a + [c] + b
  {
    var s := a + [c] + b;
    IndexOfAfterFree(a, b, c);
    assert s[..|a|] == a;
    assert s[|a| + 1..] == b;
    assert Split(s, c) == [a] + Split(b, c);
    JoinWithCons(a, Split(b, c), [c]);
  }

  /** A string is the part before position `k`, the character at `k`, and the part after. */
  lemma CutAt(s: string, k: nat)
    requires k < |s|
    ensures s[..k] + [s[k]] + s[k + 1..] == s
  {
  }

  /** Joining a list with a first element puts the separator right after it. */
  lemma JoinWithCons(x: string, rest: seq<string>, sep: string)
    requires |rest| >= 1
    ensures JoinWith([x] + rest, sep) == x + sep + JoinWith(rest, sep)
  {
    assert ([x] + rest)[1..] == rest;
  }

  /** Splitting inverts joining when no piece holds the separator. */
  lemma {:induction false} SplitJoin(parts: seq<string>, c: char)
    requires |parts| >= 1
    requires forall i | 0 <= i < |parts| :: c !in parts[i]
    ensures Split(JoinWith(parts, [c]), c) == parts
    decreases |parts|
  {
    var s := JoinWith(parts, [c]);
    if |parts| == 1 {
      assert c !in s;
      assert IndexOf(s, c) == |s|;
    } else {
      var tail := JoinWith(parts[1..], [c]);
      assert s == parts[0] + [c] + tail;
      IndexOfAfterFree(parts[0], tail, c);
      assert forall i | 0 <= i < |parts[1..]| :: parts[1..][i] == parts[i + 1];
      SplitJoin(parts[1..], c);
      assert s[|parts[0]| + 1..] == tail;
      assert s[..|parts[0]|] == parts[0];
    }
  }

  /** The first `c` in `a + [c] + b` is the one right after `a`, when `a` has none. */
  lemma {:induction false} IndexOfAfterFree(a: string, b: string, c: char)
    requires c !in a
    ensures IndexOf(a + [c] + b, c) == |a|
    decreases |a|
  {
    if |a| > 0 {
      assert (a + [c] + b)[1..] == a[1..] + [c] + b;
      IndexOfAfterFree(a[1..], b, c);
    }
  }

  /** Splitting at a separator between two strings splits each side on its own. */
  lemma SplitAppend(a: string, b: string, c: char)
    ensures Split(a + [c] + b, c) == Split(a, c) + Split(b, c)
  {
    var pa, pb := Split(a, c), Split(b, c);
    SplitSpec(a, c);
    SplitSpec(b, c);
    JoinAppend(pa, pb, [c]);
    PiecesFree(pa, pb, c);
    SplitJoin(pa + pb, c);
  }

  /** A first piece free of the separator comes off whole. */
  lemma SplitCons(x: string, t: string, c: char)
    requires c !in x
    ensures Split(x + [c] + t, c) == [x] + Split(t, c)
  {
    SplitAppend(x, t, c);
    SplitFree(x, c);
  }

  /** Four pieces free of the separator, joined by it, split back into themselves. */
  lemma SplitFour(p0: string, p1: string, p2: string, p3: string, c: char)
    requires c !in p0 && c !in p1 && c !in p2 && c !in p3
    ensures Split(p0 + [c] + (p1 + [c] + (p2 + [c] + p3)), c) == [p0, p1, p2, p3]
  {
    var t2 := p2 + [c] + p3;
    var t1 := p1 + [c] + t2;
    SplitFree(p3, c);
    SplitCons(p2, p3, c);
    SplitCons(p1, t2, c);
    SplitCons(p0, t1, c);
  }

  /** Two lists of pieces free of `c` make one. */
  lemma PiecesFree(pa: seq<string>, pb: seq<string>, c: char)
    requires forall i | 0 <= i < |pa| :: c !in pa[i]
    requires forall i | 0 <= i < |pb| :: c !in pb[i]
    ensures forall i | 0 <= i < |pa + pb| :: c !in (pa + pb)[i]
  {
    forall i | 0 <= i < |pa + pb| ensures c !in (pa + pb)[i] {
      if i < |pa| { assert (pa + pb)[i] == pa[i]; } else { assert (pa + pb)[i] == pb[i - |pa|]; }
    }
  }

  /** A string free of the separator is a single piece. */
  lemma SplitFree(s: string, c: char)
    requires c !in s
    ensures Split(s, c) == [s]
  {
    SplitJoin([s], c);
  }

  /** The lines of a text, `strings.Split(s, "\n")`. */
  function Lines(s: string): seq<string> {
    Split(s, '\n')
  }

  /** Each line followed by a newline, as successive `Fprintf(w, "...\n")` calls write them. */
  function Terminate(lines: seq<string>): string
    decreases |lines|
  {
    if |lines| == 0 then "" else lines[0] + "\n" + Terminate(lines[1..])
  }

  /** Terminating two runs of lines one after the other. */
  lemma {:induction false} TerminateAppend(p: seq<string>, q: seq<string>)
    ensures Terminate(p + q) == Terminate(p) + Terminate(q)
    decreases |p|
  {
    if |p| > 0 {
      assert (p + q)[1..] == p[1..] + q;
      TerminateAppend(p[1..], q);
    } else {
      assert p + q == q;
    }
  }

  /** A line followed by a newline adds one line in front. */
  lemma OneMoreLine(line: string, rest: string)
    requires '\n' !in line
    ensures Lines(line + "\n" + rest) == [line] + Lines(rest)
  {
    SplitFree(line, '\n');
    SplitAppend(line, rest, '\n');
  }

  /** Newline-terminated lines read back as those lines plus the empty tail. */
  lemma {:induction false} TerminateLines(lines: seq<string>)
    requires forall i | 0 <= i < |lines| :: '\n' !in lines[i]
    ensures Lines(Terminate(lines)) == lines + [""]
    decreases |lines|
  {
    if |lines| == 0 {
      SplitFree("", '\n');
    } else {
      TerminateLines(lines[1..]);
      OneMoreLine(lines[0], Terminate(lines[1..]));
      assert [lines[0]] + (lines[1..] + [""]) == lines + [""];
    }
  }

  /** Drops the empty elements, as `filepath.Join` does. */
  function NonEmpty(elems: seq<string>): seq<string>
    decreases |elems|
  {
    if |elems| == 0 then []
    else if elems[0] == "" then NonEmpty(elems[1..])
    else [elems[0]] + NonEmpty(elems[1..])
  }

  /** What is kept: every non-empty element, and nothing else. */
  lemma {:induction false} NonEmptySpec(elems: seq<string>)
    ensures forall i | 0 <= i < |NonEmpty(elems)| :: NonEmpty(elems)[i] != "" && NonEmpty(elems)[i] in elems
    ensures forall i | 0 <= i < |elems| && elems[i] != "" :: elems[i] in NonEmpty(elems)
    decreases |elems|
  {
    if |elems| > 0 {
      NonEmptySpec(elems[1..]);
      var rest := NonEmpty(elems[1..]);
      forall i | 0 <= i < |rest|
        ensures rest[i] in elems
      {
        assert rest[i] in elems[1..];
      }
      forall i | 1 <= i < |elems| && elems[i] != ""
        ensures elems[i] in NonEmpty(elems)
      {
        assert elems[i] == elems[1..][i - 1];
      }
    }
  }

  /**
   * `filepath.Join(elems...)` on a slash-separated system: the non-empty
   * elements joined with `/`. Lexical cleaning (`.`, `..`, doubled slashes)
   * is not modelled.
   */
  function PathJoin(elems: seq<string>): string {
    JoinWith(NonEmpty(elems), "/")
  }

  /** Joining a directory and a name: `dir/name`, or `dir` itself for an empty name. */
  lemma PathJoinPair(dir: string, name: string)
    requires dir != ""
    ensures PathJoin([dir, name]) == if name == "" then dir else dir + "/" + name
  {
    var elems := [dir, name];
    assert elems[1..] == [name];
    assert [name][1..] == [];
    assert NonEmpty([name][1..]) == [];
    assert NonEmpty(elems) == [dir] + NonEmpty([name]);
    if name == "" {
      assert NonEmpty([name]) == [];
      assert NonEmpty(elems) == [dir];
    } else {
      assert NonEmpty([name]) == [name];
      assert NonEmpty(elems) == [dir, name];
      assert JoinWith([dir, name], "/") == dir + "/" + JoinWith([name], "/");
    }
  }

  /** A character outside every piece and the separator is outside the join. */
  lemma {:induction false} JoinFree(parts: seq<string>, sep: string, c: char)
    requires c !in sep
    requires forall i | 0 <= i < |parts| :: c !in parts[i]
    ensures c !in JoinWith(parts, sep)
    decreases |parts|
  {
    if |parts| > 1 {
      JoinFree(parts[1..], sep, c);
    }
  }

  /** A character absent from all path elements other than `/` is absent from their join. */
  lemma PathJoinFree(elems: seq<string>, c: char)
    requires c != '/'
    requires forall i | 0 <= i < |elems| :: c !in elems[i]
    ensures c !in PathJoin(elems)
  {
    NonEmptySpec(elems);
    var r := NonEmpty(elems);
    forall i | 0 <= i < |r|
      ensures c !in r[i]
    {
      var j :| 0 <= j < |elems| && elems[j] == r[i];
    }
    JoinFree(r, "/", c);
  }

  /** The loop of `filepath.Ext`, resumed at index `i`: it scans backwards for a `.` and gives up at a `/`. */
  function ExtBefore(path: string, i: nat): string
    requires i <= |path|
    decreases i
  {
    if i == 0 then ""
    else if path[i - 1] == '/' then ""
    else if path[i - 1] == '.' then path[i - 1..]
    else ExtBefore(path, i - 1)
  }

  /**
   * With positions `i..` already scanned and free of `.` and `/`, the scan
   * finds nothing exactly when the last element holds no `.`, and otherwise
   * returns the suffix from its last `.`.
   */
  lemma {:induction false} ExtBeforeSpec(path: string, i: nat)
    requires i <= |path|
    requires forall j | i <= j < |path| :: path[j] != '.' && path[j] != '/'
    ensures ExtBefore(path, i) == "" <==> forall j | 0 <= j < |path| && '/' !in path[j..] :: path[j] != '.'
    ensures ExtBefore(path, i) != "" ==>
      exists j | 0 <= j < |path| :: ExtBefore(path, i) == path[j..] && path[j] == '.' && '.' !in path[j + 1..] && '/' !in path[j..]
    decreases i
  {
    if i == 0 {
    } else if path[i - 1] == '/' {
      assert forall j | 0 <= j < i :: path[j..][i - 1 - j] == '/';
    } else if path[i - 1] == '.' {
      var j := i - 1;
      assert '.' !in path[j + 1..] && '/' !in path[j..];
    } else {
      ExtBeforeSpec(path, i - 1);
    }
  }

  /** `filepath.Ext(path)`: the suffix from the last `.` of the last element, or "". */
  function Ext(path: string): string {
    ExtBefore(path, |path|)
  }

  /** A path has extension `.deb` exactly when it ends in `.deb`. */
  lemma ExtIsDeb(path: string)
    ensures Ext(path) == ".deb" <==> EndsWith(path, ".deb")
  {
    if EndsWith(path, ".deb") {
      DebPathHasExt(path);
    }
    if Ext(path) == ".deb" {
      DebExtEndsPath(path);
    }
  }

  /** The scan stops at the `.` four characters from the end. */
  lemma DebPathHasExt(path: string)
    requires EndsWith(path, ".deb")
    ensures Ext(path) == ".deb"
  {
    var n := |path|;
    assert path[n - 4..] == ".deb";
    assert path[n - 1] == 'b' && path[n - 2] == 'e' && path[n - 3] == 'd' && path[n - 4] == '.';
    assert ExtBefore(path, n - 3) == ".deb";
    assert ExtBefore(path, n - 2) == ExtBefore(path, n - 3);
    assert ExtBefore(path, n - 1) == ExtBefore(path, n - 2);
  }

  /** An extension is a suffix, so `.deb` ends the path. */
  lemma DebExtEndsPath(path: string)
    requires Ext(path) == ".deb"
    ensures EndsWith(path, ".deb")
  {
    ExtBeforeSpec(path, |path|);
    var j :| 0 <= j < |path| && ".deb" == path[j..];
    assert |path| - j == 4;
  }

  /** The decimal digits of `n`, most significant first. */
  function NatToString(n: nat): (r: string)
    ensures |r| >= 1
    ensures forall i | 0 <= i < |r| :: '0' <= r[i] <= '9'
    decreases n
  {
    var d := [(n % 10) as char + '0'];
    if n < 10 then d else NatToString(n / 10) + d
  }
}

=== FILE: watcher.dfy ===
/**
 * One step of the file watcher in main.go (lines 118-138): given a
 * filesystem event on a watched bucket directory, the sequence of actions
 * the watcher goroutine takes. Building the index and the Release file are
 * the operations of the `PackageIndex` and `ReleaseFile` modules; here they
 * appear as actions, with the index outcome supplied as a parameter
 * because the watcher only logs it.
 */
module Watcher {
  import opened Wrappers
  import opened Text
  import opened RepoPaths
  import opened PackageIndex

  /** The operation bits of `fsnotify.Op`. */
  const OpCreate: bv32 := 1
  const OpWrite: bv32 := 2
  const OpRemove: bv32 := 4
  const OpRename: bv32 := 8
  const OpChmod: bv32 := 16

  /** An `fsnotify.Event`: the path of the changed file and its operation bits. */
  datatype Event = Event(name: string, op: bv32)

  /**
   * What the goroutine does, in order. `Panic` is an index out of range in
   * `destructPath`, which ends the process with the mutex still held.
   */
  datatype Action =
    | Lock
    | LogEvent(ev: Event)
    | BuildIndex(bucket: Bucket)
    | LogIndexError(bucket: Bucket)
    | BuildRelease(distro: string)
    | Unlock
    | Panic

  /** `event.Op&flag == flag`. */
  predicate HasOp(op: bv32, flag: bv32) {
    op & flag == flag
  }

  /** The operations that take the lock: a write or a removal. */
  predicate Locks(ev: Event) {
    HasOp(ev.op, OpWrite) || HasOp(ev.op, OpRemove)
  }

  /**
   * The actions one event causes; `indexFails(b)` says whether building
   * the index of bucket `b` returns an error.
   */
  function Step(ev: Event, indexFails: Bucket -> bool): (t: seq<Action>)
    ensures t == [] <==> !Locks(ev)
    ensures t != [] ==> t[0] == Lock
    ensures Panic in t ==> DestructPath(ev.name).None?
  {
    if !Locks(ev) then []
    else if Ext(ev.name) != ".deb" then [Lock, Unlock]
    else match DestructPath(ev.name)
      case None => [Lock, LogEvent(ev), Panic]
      case Some(b) => Rebuild(ev, b, indexFails(b))
  }

  /** Rebuilding bucket `b` under the lock; a failed index build is logged and the Release file is still rebuilt. */
  function Rebuild(ev: Event, b: Bucket, indexFailed: bool): seq<Action> {
    [Lock, LogEvent(ev), BuildIndex(b)]
    + (if indexFailed then [LogIndexError(b)] else [])
    + [BuildRelease(b.distro), Unlock]
  }

  /** The event asks for a rebuild: a write or removal of a path ending in `.deb`. */
  predicate Triggers(ev: Event) {
    Locks(ev) && EndsWith(ev.name, ".deb")
  }

  /** The four shapes a step takes, stated through `Triggers` rather than `filepath.Ext`. */
  lemma StepCases(ev: Event, indexFails: Bucket -> bool)
    ensures !Locks(ev) ==> Step(ev, indexFails) == []
    ensures Locks(ev) && !Triggers(ev) ==> Step(ev, indexFails) == [Lock, Unlock]
    ensures Triggers(ev) && DestructPath(ev.name).None? ==> Step(ev, indexFails) == [Lock, LogEvent(ev), Panic]
    ensures Triggers(ev) && DestructPath(ev.name).Some? ==>
      var b := DestructPath(ev.name).value; Step(ev, indexFails) == Rebuild(ev, b, indexFails(b))
  {
    ExtIsDeb(ev.name);
  }

  /** The actions of a rebuild. */
  lemma RebuildActions(ev: Event, b: Bucket, indexFailed: bool, a: Action)
    ensures a in Rebuild(ev, b, indexFailed) <==>
      a == Lock || a == LogEvent(ev) || a == BuildIndex(b) || (indexFailed && a == LogIndexError(b))
      || a == BuildRelease(b.distro) || a == Unlock
  {
  }

  /**
   * An index is rebuilt exactly for triggering events whose path yields a
   * bucket, and it is the bucket read off the path.
   */
  lemma RebuildIff(ev: Event, indexFails: Bucket -> bool, b: Bucket)
    ensures BuildIndex(b) in Step(ev, indexFails) <==> Triggers(ev) && DestructPath(ev.name) == Some(b)
  {
    StepCases(ev, indexFails);
    var t := Step(ev, indexFails);
    if Triggers(ev) {
      match DestructPath(ev.name)
      case None =>
        assert t == [Lock, LogEvent(ev), Panic];
      case Some(b') =>
        assert t == Rebuild(ev, b', indexFails(b'));
        RebuildActions(ev, b', indexFails(b'), BuildIndex(b));
    } else if Locks(ev) {
      assert t == [Lock, Unlock];
    }
  }

  /**
   * The Release file of the bucket's distribution is rebuilt after its
   * index, whether or not the index build failed.
   */
  lemma ReleaseFollowsIndex(ev: Event, indexFails: Bucket -> bool, b: Bucket)
    requires BuildIndex(b) in Step(ev, indexFails)
    ensures var t := Step(ev, indexFails);
      exists i, j | 0 <= i < j < |t| :: t[i] == BuildIndex(b) && t[j] == BuildRelease(b.distro)
  {
    StepCases(ev, indexFails);
    RebuildIff(ev, indexFails, b);
    var t := Step(ev, indexFails);
    assert t[2] == BuildIndex(b);
    assert t[|t| - 2] == BuildRelease(b.distro);
  }

  /** Whether the index build fails changes only the logging, never what is rebuilt. */
  lemma RebuildIgnoresIndexOutcome(ev: Event, f1: Bucket -> bool, f2: Bucket -> bool, a: Action)
    requires !a.LogIndexError?
    ensures a in Step(ev, f1) <==> a in Step(ev, f2)
  {
    StepCases(ev, f1);
    StepCases(ev, f2);
  }

  /**
   * The lock is taken first and released last, unless the path cannot be
   * destructed; events that are neither writes nor removals do nothing.
   */
  lemma LockDiscipline(ev: Event, indexFails: Bucket -> bool)
    ensures Step(ev, indexFails) == [] <==> !Locks(ev)
    ensures var t := Step(ev, indexFails); t != [] ==> t[0] == Lock && Lock !in t[1..]
    ensures var t := Step(ev, indexFails);
      t != [] && Panic !in t ==> t[|t| - 1] == Unlock && Unlock !in t[..|t| - 1]
    ensures Panic in Step(ev, indexFails) <==> Triggers(ev) && DestructPath(ev.name).None?
  {
    StepCases(ev, indexFails);
    if !Locks(ev) {
    } else if !Triggers(ev) {
      LockUnlockBracketed();
    } else if DestructPath(ev.name).None? {
      PanicKeepsLock(ev);
    } else {
      var b := DestructPath(ev.name).value;
      RebuildBracketed(ev, b, indexFails(b));
    }
  }

  /** Taking and releasing the lock with nothing in between. */
  lemma LockUnlockBracketed()
    ensures var t := [Lock, Unlock];
      && t[0] == Lock && Lock !in t[1..]
      && t[|t| - 1] == Unlock && Unlock !in t[..|t| - 1]
      && Panic !in t
  {
    var t := [Lock, Unlock];
    assert t[1..] == [Unlock];
    assert t[..|t| - 1] == [Lock];
  }

  /** The panicking step takes the lock once and never releases it. */
  lemma PanicKeepsLock(ev: Event)
    ensures var t := [Lock, LogEvent(ev), Panic];
      t[0] == Lock && Lock !in t[1..] && Panic in t
  {
    var t := [Lock, LogEvent(ev), Panic];
    assert t[1..] == [LogEvent(ev), Panic];
  }

  /** A rebuild holds the lock from its first action to its last. */
  lemma RebuildBracketed(ev: Event, b: Bucket, indexFailed: bool)
    ensures var t := Rebuild(ev, b, indexFailed);
      && t[0] == Lock && Lock !in t[1..]
      && t[|t| - 1] == Unlock && Unlock !in t[..|t| - 1]
      && Panic !in t
  {
    var t := Rebuild(ev, b, indexFailed);
    var mid := [LogEvent(ev), BuildIndex(b)] + (if indexFailed then [LogIndexError(b)] else []) + [BuildRelease(b.distro)];
    assert t == [Lock] + mid + [Unlock];
    assert t[1..] == mid + [Unlock];
    assert t[..|t| - 1] == [Lock] + mid;
  }

  /** Create, rename and attribute changes alone never rebuild anything. */
  lemma OtherOpsIgnored(name: string, indexFails: Bucket -> bool)
    ensures Step(Event(name, OpCreate), indexFails) == []
    ensures Step(Event(name, OpRename), indexFails) == []
    ensures Step(Event(name, OpChmod), indexFails) == []
  {
  }

  /**
   * A triggering file name always passes the index builder's filter,
   * which only asks for a `deb` suffix.
   */
  lemma TriggerPassesIndexFilter(dir: string, file: string, op: bv32)
    requires Triggers(Event(dir + "/" + file, op))
    ensures IsDebName(file)
  {
    assert dir + "/" + file == dir + ['/'] + file;
    EndsWithAfter(dir, '/', file, ".deb");
  }

  /**
   * The converse fails: `foodeb` is indexed when the directory is listed,
   * but writing it does not trigger a rebuild.
   */
  lemma IndexFilterIsLooser(dir: string, indexFails: Bucket -> bool)
    ensures IsDebName("foodeb")
    ensures Step(Event(dir + "/foodeb", OpWrite), indexFails) == [Lock, Unlock]
  {
    var ev := Event(dir + "/foodeb", OpWrite);
    assert IsDebName("foodeb") by {
      assert "foodeb"[3..] == "deb";
    }
    assert Locks(ev) by {
      assert HasOp(OpWrite, OpWrite);
    }
    assert !Triggers(ev) by {
      var s := ev.name;
      assert s[|s| - 4..] == "odeb";
    }
    StepCases(ev, indexFails);
  }

  /**
   * Writing a `.deb` into a bucket directory rebuilds exactly that bucket's
   * index and then its distribution's Release file.
   */
  lemma WriteRebuildsItsBucket(cfg: Config, d: string, s: string, a: string, f: string,
                               op: bv32, indexFails: Bucket -> bool)
    requires IsElement(d) && IsElement(s) && IsElement(f) && '/' !in a && '-' !in a
    requires EndsWith(f, ".deb") && (HasOp(op, OpWrite) || HasOp(op, OpRemove))
    ensures var t := Step(Event(ArchPath(cfg, d, s, a) + "/" + f, op), indexFails);
      && BuildIndex(Bucket(d, s, a)) in t
      && BuildRelease(d) in t
      && t[|t| - 1] == Unlock
  {
    PackageFileInBucket(cfg, d, s, a, f);
    RebuildsBucketOf(Event(ArchPath(cfg, d, s, a) + "/" + f, op), indexFails, Bucket(d, s, a));
  }

  /** A `.deb` inside a bucket directory names a `.deb` path whose bucket is read back. */
  lemma PackageFileInBucket(cfg: Config, d: string, s: string, a: string, f: string)
    requires IsElement(d) && IsElement(s) && IsElement(f) && '/' !in a && '-' !in a
    requires EndsWith(f, ".deb")
    ensures var name := ArchPath(cfg, d, s, a) + "/" + f;
      EndsWith(name, ".deb") && DestructPath(name) == Some(Bucket(d, s, a))
  {
    var dir := ArchPath(cfg, d, s, a);
    DestructArchPath(cfg, d, s, a, f);
    assert dir + "/" + f == dir + ['/'] + f;
    EndsWithAfter(dir, '/', f, ".deb");
  }

  /** A triggering event whose path yields bucket `b` rebuilds `b` and releases the lock at the end. */
  lemma RebuildsBucketOf(ev: Event, indexFails: Bucket -> bool, b: Bucket)
    requires Triggers(ev) && DestructPath(ev.name) == Some(b)
    ensures var t := Step(ev, indexFails);
      && BuildIndex(b) in t
      && BuildRelease(b.distro) in t
      && t[|t| - 1] == Unlock
  {
    StepCases(ev, indexFails);
    RebuildActions(ev, b, indexFails(b), BuildIndex(b));
    RebuildActions(ev, b, indexFails(b), BuildRelease(b.distro));
    RebuildBracketed(ev, b, indexFails(b));
  }
}

=== FILE: wrappers.dfy ===
/** Failure-carrying result types used throughout the model. */
module Wrappers {

  /** A value that may be absent: a file that cannot be opened, a decoder that refuses its input. */
  datatype Option<+T> = None | Some(value: T) {

    /** The value if present, `default` otherwise. */
    function GetOr(default: T): T {
      match this
      case Some(v) => v
      case None => default
    }
  }

  /** The Go `(value, error)` pair: exactly one of the two is meaningful. */
  datatype Result<+T, +E> = Success(value: T) | Failure(error: E) {

    /** The value on success, `default` otherwise. */
    function GetOr(default: T): T {
      match this
      case Success(v) => v
      case Failure(_) => default
    }
  }
}
